=== FILE: README.md ===
# CPU math-kernel front end of the BladeDISC runtime, in Dafny

This project models the front end of the runtime's CPU math kernels
(`tao_compiler/mlir/xla/ral/context/common_context_impl_mkldnn.cc`). That file turns memory-reference descriptors and compiler-emitted
metadata into calls to MKL or oneDNN. The vendor calls are not modelled.
What remains is exact integer and string logic:

- **Kernel mode** (`kernel_mode.dfy`). The `DISC_CPU_MATH_KERNEL_MODE`
  string is lower-cased and mapped onto MKL, oneDNN or autotuning. The
  first lookup caches the result for the life of the process.
- **Layout decoding** (`layout.dfy`). One marker character per logical
  axis is scattered into a shared N+1-character buffer at the physical
  position the metadata names. The buffer is read as a C string and looked
  up with `str2format`.
- **Convolution** (`conv.dfy`). `parseConvParams` walks one metadata
  cursor over three layouts, N-2 strides and N-2 dilations. It reads
  padding pairs, computes `groups = ic / kc` and checks element types.
  `ral_conv` wraps the parse.
- **GEMM** (`gemm.dfy`) and **batched GEMM** (`batch_gemm.dfy`). These
  cover the checks of `ral_gemm` and `ral_batch_gemm` in source order, the
  mode dispatch, and the arguments each backend is handed.
- **Shared vocabulary** (`common.dfy`, `dispatch.dfy`). Memref descriptors,
  element types, products of sizes, C++ truncating division, the failure
  messages, the recorded vendor calls and the `Outcome` of an entry point.

Each entry point yields an `Outcome`, which is one of:

- `NoOp`;
- `Error`, with the list of failures signalled;
- `CallMKL` or `CallOneDNN`, with the argument record of the one vendor
  routine called;
- `CallConv`, for the convolution compute.

Where the C++ has undefined behaviour, the model yields the explicit value
`Undefined` (`Common.Defined`). These cases are:

- a metadata entry outside the buffer or the sizes array;
- a read past the end of the metadata or padding array;
- a buffer with no NUL;
- `kc == 0`.

No precondition rules these inputs out. The mode cache and the environment
string are parameters of the GEMM entry points. The mode is looked up only
after the checks pass, so the model also shows which call fills the cache.

`ral_conv` never consults the mode, so autotuning is not rejected for
convolution, and `Conv.RalConv` takes no mode.

`isEmptyMemref` is defined outside the modelled file. It is taken to hold
exactly when some size is 0, which is the same as holding no elements
(`Common.EmptyIffNoElements`).

When `parseConvParams` fails, `ral_conv` signals "invalid conv params"
(lines 242-245) but does not return. Every other `signalError` in the file
is followed by a `return` (lines 149-150, 164-165, 176-177, 205-206,
213-214, 221-222, 306-307, 317-319, 411-412, 419-420, 428-429, 439-442).
Line 248 then computes with a `ConvParams` the parse never finished. The
model follows the code in `Conv.RalConv` and gives the version that returns
as `Conv.RalConvIntended` (see Findings).

## Model

| member | source | states |
|---|---|---|
| KernelMode.ToLower | tao_compiler/mlir/xla/ral/context/common_context_impl_mkldnn.cc:38-39 | The result has the input's length, and each character is that character under C-locale `tolower`. |
| KernelMode.ParseMode | tao_compiler/mlir/xla/ral/context/common_context_impl_mkldnn.cc:35-54 | Total mapping: oneDNN exactly when the string spells "onednn" in any case, autotuning exactly when it spells "autotune", MKL for every other string including the empty one. |
| KernelMode.ParseModeIgnoresCase | tao_compiler/mlir/xla/ral/context/common_context_impl_mkldnn.cc:38-39 | Two strings that differ only in letter case select the same mode. |
| KernelMode.ParseModeExamples | tao_compiler/mlir/xla/ral/context/common_context_impl_mkldnn.cc:42-53 | "OneDNN" gives oneDNN, "AutoTune" gives autotuning, and "MKL", "" and "mkldnn" give MKL. |
| KernelMode.GetMode | tao_compiler/mlir/xla/ral/context/common_context_impl_mkldnn.cc:56-59 | The cache afterwards holds the returned mode. A filled cache is returned unchanged and the environment is ignored. An empty cache is filled by parsing the environment. |
| KernelMode.ModeRegistry.Get | tao_compiler/mlir/xla/ral/context/common_context_impl_mkldnn.cc:56-59 | The function-local static as an object: a filled cache returns its mode; an empty one returns the parsed environment; afterwards the cache holds the returned mode. |
| KernelMode.CallsAgreeWithFirst | tao_compiler/mlir/xla/ral/context/common_context_impl_mkldnn.cc:56-59 | Over any sequence of calls with any environment strings, every call returns the mode of the first call. |
| KernelMode.TwoCallsAgree | tao_compiler/mlir/xla/ral/context/common_context_impl_mkldnn.cc:56-59 | Two lookups on a fresh registry both return the mode parsed from the first environment string. |
| Common.ToDataType | tao_compiler/mlir/xla/ral/context/common_context_impl_mkldnn.cc:99-107 | The oneDNN data type is defined exactly for `float`. |
| Common.EmptyIffNoElements | tao_compiler/mlir/xla/ral/context/common_context_impl_mkldnn.cc:236 | The assumed `isEmptyMemref` (some size is 0) holds exactly when the operand's element count is 0. |
| Common.TruncDiv | tao_compiler/mlir/xla/ral/context/common_context_impl_mkldnn.cc:189 | The quotient is truncated toward zero: the remainder has the dividend's sign and is smaller than the divisor in magnitude. |
| Common.TruncDivNegativeDividend | tao_compiler/mlir/xla/ral/context/common_context_impl_mkldnn.cc:189 | 8 / 4 = 2 and 7 / 4 = 1; -7 / 2 = -3 in C++, where Euclidean division gives -4. |
| Layout.Str2Format | tao_compiler/mlir/xla/ral/context/common_context_impl_mkldnn.cc:84-97 | A defined tag exactly for "abcd", "acdb", "cdba", "abc" and "acb", and that tag names the string. Every other string gives `undef`. |
| Layout.FormatNameRoundTrip | tao_compiler/mlir/xla/ral/context/common_context_impl_mkldnn.cc:84-97 | Looking up the name of a defined tag gives the tag back. |
| Layout.Markers | tao_compiler/mlir/xla/ral/context/common_context_impl_mkldnn.cc:143-146 | The input and output decodes write marker 'a'+i for logical axis i. No marker is NUL. |
| Layout.FilterMarkers | tao_compiler/mlir/xla/ral/context/common_context_impl_mkldnn.cc:156-161 | The filter decode writes 'b', then 'a', then 'a'+i for i >= 2. |
| Layout.Scatter | tao_compiler/mlir/xla/ral/context/common_context_impl_mkldnn.cc:143-146 | Defined exactly when every consumed entry exists and is a buffer position. The marker of an entry lands in its slot unless a later entry overwrites it. Slots no entry names keep their old content. The length is unchanged. |
| Layout.CString | tao_compiler/mlir/xla/ral/context/common_context_impl_mkldnn.cc:147 | Defined exactly when the buffer holds a NUL. The result is the NUL-free prefix before the first NUL. |
| Layout.DecodeLayout | tao_compiler/mlir/xla/ral/context/common_context_impl_mkldnn.cc:143-147 | Undefined when a consumed entry is missing or outside the buffer. A defined decode keeps the buffer length and leaves a NUL in it. Each marker lands in its slot unless a later entry overwrites it, and untouched slots keep their old content. A defined tag's name is exactly the buffer's content up to the first NUL. |
| Layout.DecodeLayoutDefined | tao_compiler/mlir/xla/ral/context/common_context_impl_mkldnn.cc:143-147 | The converse of the definedness clauses: when every consumed entry is a buffer position and some NUL slot is named by no entry, the decode is defined. |
| Layout.DecodeLayoutTag | tao_compiler/mlir/xla/ral/context/common_context_impl_mkldnn.cc:84-97 | A defined decode's tag is the `str2format` lookup of the buffer read as a C string, and it is `undef` exactly when that string is not one of the five known names. |
| Layout.DecodePermutation | tao_compiler/mlir/xla/ral/context/common_context_impl_mkldnn.cc:140-147 | When the entries are a permutation and the last slot is NUL, the decode is defined and marker i lands at the slot entry i names. The last slot stays NUL, and the tag is the lookup of the first N characters. |
| Layout.DecodeIgnoresPriorBuffer | tao_compiler/mlir/xla/ral/context/common_context_impl_mkldnn.cc:140-181 | On a permutation, the content earlier decodes left in the shared buffer does not change the decode. |
| Layout.DecodeSpellsLayoutName | tao_compiler/mlir/xla/ral/context/common_context_impl_mkldnn.cc:140-181 | On a permutation, the decoded tag is the lookup of the name the permutation spells, defined independently by inverting the permutation. |
| Layout.ScatterReadsOnlyItsEntries | tao_compiler/mlir/xla/ral/context/common_context_impl_mkldnn.cc:143-146 | A scatter depends only on the metadata entries it consumes. |
| Layout.DecodeReadsOnlyItsEntries | tao_compiler/mlir/xla/ral/context/common_context_impl_mkldnn.cc:140-147 | A decode depends only on the metadata entries it consumes. |
| Layout.StaleBufferExample | tao_compiler/mlir/xla/ral/context/common_context_impl_mkldnn.cc:140-181 | The entries [0, 2, 0, 1] are not a permutation and never write slot 3. After a "cdba" decode they read "cdba" again. From a fresh buffer they read "cdb", which is undefined. |
| Conv.ReadPadding | tao_compiler/mlir/xla/ral/context/common_context_impl_mkldnn.cc:116-119 | Defined exactly when the padding array holds at least 2(N-2) entries. The low padding of axis i is entry 2i and the high padding is entry 2i+1. |
| Conv.DecodeInput | tao_compiler/mlir/xla/ral/context/common_context_impl_mkldnn.cc:140-147 | A defined input decode has read N entries, each naming a slot of the fresh N+1-slot buffer. `ic` is the input size at the axis that entry 1 names. The buffer holds the markers as the scatter placed them (last write wins, other slots still NUL), and the tag is `str2format` of that buffer read as a C string. |
| Conv.DecodeFilter | tao_compiler/mlir/xla/ral/context/common_context_impl_mkldnn.cc:156-162 | A defined filter decode has read 2N entries, and entries N..2N-1 name slots of the buffer the input decode left. `kc` is the kernel size at the axis that entry N names. The buffer holds the filter markers as the scatter placed them over the old content, and the tag is `str2format` of that buffer read as a C string. |
| Conv.DecodeLayouts | tao_compiler/mlir/xla/ral/context/common_context_impl_mkldnn.cc:140-181 | Either all three tags are defined (with `ic` and `kc` as above) after 3N entries, or the first undefined layout stops the parse. Stage by stage, the input, filter or output decode stops it with the matching invalid-format message at cursor N, 2N or 3N exactly when that decode's tag is `undef` and the earlier ones are defined. |
| Conv.CheckDtypes | tao_compiler/mlir/xla/ral/context/common_context_impl_mkldnn.cc:203-222 | No failure exactly when all three element types are `float`. Otherwise the first non-float operand, in input, filter, output order, is reported. |
| Conv.Finish | tao_compiler/mlir/xla/ral/context/common_context_impl_mkldnn.cc:189-227 | Defined exactly when `kc` is nonzero. Succeeds exactly when all element types are `float`; otherwise the message is the first non-float operand's, in input, filter, output order. The descriptors carry the sizes, f32 and the decoded tags. `groups` is the truncating quotient `ic / kc`. |
| Conv.ParseTail | tao_compiler/mlir/xla/ral/context/common_context_impl_mkldnn.cc:183-227 | A bad layout is returned unchanged as the failure. After good layouts the parse is defined exactly when the metadata holds 5N-4 entries and `kc` is nonzero, and then stops at cursor 5N-4. It succeeds exactly when all three element types are `float`, and otherwise fails with the message of the first non-float operand. A successful parse has strides = entries 3N..4N-3 and dilations = entries 4N-2..5N-5, the decoded tags, f32 descriptors over the operands' sizes, the padding pairs, and `groups = ic / kc` truncated. |
| Conv.ParseConvParams | tao_compiler/mlir/xla/ral/context/common_context_impl_mkldnn.cc:111-228 | The cursor never passes the metadata's end. On success exactly 5N-4 entries are consumed, with the strides, dilations, padding pairs, `groups = input.sizes[md[1]] / kernel.sizes[md[N]]` and the descriptors of `ParsedFrom`. On failure the message matches the cursor: N, 2N or 3N for the three layouts, 5N-4 for the element types. With all entries consumed, it succeeds exactly when every element type is `float`. |
| Conv.ParseFollowsLayouts | tao_compiler/mlir/xla/ral/context/common_context_impl_mkldnn.cc:116-222 | Missing padding or a layout decode with undefined behaviour leaves the parse undefined. A bad layout is exactly the parse's failure, with its message and cursor. An element-type failure names the first non-float operand. A successful parse carries exactly the three decoded tags. |
| Conv.DecodeLayoutsReadsOnlyConsumed | tao_compiler/mlir/xla/ral/context/common_context_impl_mkldnn.cc:140-181 | The layout decodes depend only on the entries before the cursor they stop at. |
| Conv.ParseTailReadsOnlyItsEntries | tao_compiler/mlir/xla/ral/context/common_context_impl_mkldnn.cc:183-188 | After good layouts, the parse depends only on the stride and dilation entries. |
| Conv.ParseReadsOnlyConsumed | tao_compiler/mlir/xla/ral/context/common_context_impl_mkldnn.cc:147-188 | Changing or dropping metadata at or past the returned cursor does not change the parse. In particular a bad layout returns before any later field is read. |
| Conv.DecodeLayoutsSpelled | tao_compiler/mlir/xla/ral/context/common_context_impl_mkldnn.cc:140-181 | On well-formed metadata (three permutations), the shared, never-cleared buffer is harmless: each layout decodes to what its own permutation spells. |
| Conv.WellFormedParse | tao_compiler/mlir/xla/ral/context/common_context_impl_mkldnn.cc:111-228 | With well-formed metadata, enough padding and nonzero `kc`, the parse is defined. It succeeds exactly when the three spelled layouts are known and all types are `float`, and it then carries those layouts. When a layout decode stops, the parse fails with exactly that decode's message and cursor. |
| Conv.NhwcExample | tao_compiler/mlir/xla/ral/context/common_context_impl_mkldnn.cc:140-189 | An NHWC input with an HWIO filter (metadata [0,3,1,2 / 2,3,0,1 / 0,3,1,2], 8 input channels, filter of 4 input channels) decodes to acdb / cdba / acdb with 2 groups and reaches the compute. |
| Conv.RalConv | tao_compiler/mlir/xla/ral/context/common_context_impl_mkldnn.cc:232-256 | An empty operand returns with nothing signalled. Otherwise, unless the parse is undefined, the compute is always reached. It gets parsed parameters exactly when nothing was signalled. After a failed parse the parse's message and then "invalid conv params" are signalled. For non-empty operands the call is defined exactly when the parse is; a successful parse reaches the compute with its parameters and nothing signalled, and a failed one signals its message and "invalid conv params" and still computes. |
| Conv.RalConvIntended | tao_compiler/mlir/xla/ral/context/common_context_impl_mkldnn.cc:232-246 | The corrected entry point: after a failed parse it signals the two failures and computes nothing. The compute only ever receives parsed parameters. For non-empty operands the call is defined exactly when the parse is; a successful parse reaches the compute with its parameters, and a failed one is exactly the error [parse message, "invalid conv params"]. |
| Conv.RalConvDiffersOnlyAfterFailedParse | tao_compiler/mlir/xla/ral/context/common_context_impl_mkldnn.cc:242-248 | The code as written and the corrected entry point are defined on the same inputs. They differ exactly on non-empty operands whose parse fails, where the code as written signals the same failures and then computes anyway. |
| Conv.SwappedParseFails | tao_compiler/mlir/xla/ral/context/common_context_impl_mkldnn.cc:140-151 | Input-layout metadata [1, 0, 2, 3] spells "bacd" and stops the parse with "invalid input format for conv op" after 4 entries. |
| Conv.ConvComputesAfterParseFailure | tao_compiler/mlir/xla/ral/context/common_context_impl_mkldnn.cc:242-248 | For that metadata, the code as written signals both failures and still computes, while the corrected entry point stops. |
| Gemm.OpShape | tao_compiler/mlir/xla/ral/context/common_context_impl_mkldnn.cc:303-309 | op(t)'s rows and columns are the last two sizes of t, in some order. |
| Gemm.OpShapeCovers | tao_compiler/mlir/xla/ral/context/common_context_impl_mkldnn.cc:302-308 | Transposing an operand swaps its two dimensions and keeps its element count. |
| Gemm.GemmArgsFor | tao_compiler/mlir/xla/ral/context/common_context_impl_mkldnn.cc:263-290 | Both GEMM helpers pass the transpose flags through, with m x k = the element count of A, n from op(B), alpha 1, beta 0 and the row strides as leading dimensions. |
| Gemm.MklGemm | tao_compiler/mlir/xla/ral/context/common_context_impl_mkldnn.cc:263-275 | `mkl_ral_gemm` makes one `cblas_sgemm` call. It passes both transpose flags through; (m, k) is op(A)'s shape and n is op(B)'s column count; alpha is 1 and beta 0; the leading dimensions are the row strides of A, B and C; m x k covers A. |
| Gemm.OneDnnGemm | tao_compiler/mlir/xla/ral/context/common_context_impl_mkldnn.cc:279-290 | `onednn_ral_gemm` makes one `dnnl::sgemm` call. It passes both transpose flags through; (m, k) is op(A)'s shape and n is op(B)'s column count; alpha is 1 and beta 0; the leading dimensions are the row strides of A, B and C; m x k covers A. |
| Gemm.BackendsAgree | tao_compiler/mlir/xla/ral/context/common_context_impl_mkldnn.cc:263-290 | Both backends are handed identical GEMM arguments. |
| Gemm.RalGemm | tao_compiler/mlir/xla/ral/context/common_context_impl_mkldnn.cc:294-320 | In order: an empty operand gives a no-op; a contraction mismatch gives exactly that error; then autotuning is rejected, and MKL or oneDNN mode calls exactly that backend. Each case holds if and only if its condition does. An empty-operand or contraction-mismatch rejection leaves the mode cache untouched; every call that passes those two checks, the autotuning rejection included, leaves it as the mode lookup leaves it: filled, with the cached mode if there was one and the parsed environment otherwise. |
| Gemm.DispatchedGemmCoversOperands | tao_compiler/mlir/xla/ral/context/common_context_impl_mkldnn.cc:302-314 | A GEMM dispatched to either backend, MKL or oneDNN, has m x k equal to A's element count and k x n equal to B's. |
| Gemm.RalGemmIgnoresOutputShape | tao_compiler/mlir/xla/ral/context/common_context_impl_mkldnn.cc:302-309 | Two non-empty outputs with the same strides give the same outcome whatever their sizes: C's shape is never checked. |
| Gemm.RalGemmFillsCache | tao_compiler/mlir/xla/ral/context/common_context_impl_mkldnn.cc:310 | The first call to pass the checks fills an empty cache from the environment. |
| Gemm.RalGemmUsesCache | tao_compiler/mlir/xla/ral/context/common_context_impl_mkldnn.cc:310 | With a filled cache, the environment no longer matters. |
| Gemm.RalGemmRejectsAutotune | tao_compiler/mlir/xla/ral/context/common_context_impl_mkldnn.cc:315-319 | "AUTOTUNE" selects autotuning, which GEMM rejects after filling the cache. |
| Gemm.RalGemmExamples | tao_compiler/mlir/xla/ral/context/common_context_impl_mkldnn.cc:302-314 | A 2x3 by 4x5 product is a contraction mismatch. A 2x3 by 3x5 product in MKL mode becomes sgemm(m=2, n=5, k=3, alpha 1, beta 0). |
| BatchGemm.BatchSize | tao_compiler/mlir/xla/ral/context/common_context_impl_mkldnn.cc:348-355 | The batch count times one matrix's element count is the operand's element count, and it is 0 exactly when a leading size is 0. |
| BatchGemm.GetBatchSize | tao_compiler/mlir/xla/ral/context/common_context_impl_mkldnn.cc:348-355 | The loop computes the product of the leading N-2 sizes. Times one matrix's element count, that is the operand's element count. |
| BatchGemm.MklBatchGemm | tao_compiler/mlir/xla/ral/context/common_context_impl_mkldnn.cc:359-379 | One strided-batch sgemm with A's batch count and per-matrix strides m*k, k*n and m*n. Batch count times A's stride is A's element count. alpha is 1, beta 0, and the flags are passed through. The batch count is the product of A's leading sizes, m and k are op(A)'s shape, n is op(B)'s columns, and the leading dimensions are the row strides A, B and C. |
| BatchGemm.OneDnnBatchGemm | tao_compiler/mlir/xla/ral/context/common_context_impl_mkldnn.cc:383-401 | One matmul over {b, m, k}, {b, k, n} and {b, m, n} views. The source view holds A's elements. A transposed operand uses acb and the rest use abc. Each dtype is f32 exactly for `float`. With b the batch count of A, the views are exactly [b, m, k], [b, k, n] and [b, m, n] for op(A) of shape m x k and op(B) with n columns. |
| BatchGemm.RalBatchGemm | tao_compiler/mlir/xla/ral/context/common_context_impl_mkldnn.cc:405-443 | In order: an empty operand is an error; unequal batch sizes are an error; a C that is not m x n, or a B whose contraction dim is not k, is an error. Then autotuning is rejected, and MKL or oneDNN mode calls that backend. Each case holds if and only if its condition does. The three rejections before the mode lookup leave the cache untouched; every later outcome leaves it as the lookup leaves it. |
| BatchGemm.DispatchedBatchCoversOperands | tao_compiler/mlir/xla/ral/context/common_context_impl_mkldnn.cc:362-378 | A dispatched strided batch covers A, B and C exactly: batch count times each stride is that operand's element count. |
| BatchGemm.DispatchedMatmulCoversOperands | tao_compiler/mlir/xla/ral/context/common_context_impl_mkldnn.cc:386-398 | A dispatched matmul's three views hold exactly the elements of A, B and C. |
| BatchGemm.BatchMismatchExample | tao_compiler/mlir/xla/ral/context/common_context_impl_mkldnn.cc:415-421 | Batches of 2, 3 and 2 matrices are rejected as a batch-size mismatch, and the mode cache stays empty. |

## Left out

- Vendor routines (`cblas_sgemm`, `dnnl::sgemm`, `cblas_sgemm_batch_strided`, `matmul_forward::compute`, `convolution_forward::compute`, `reorder_to`) are foreign code. They appear only as recorded calls with their arguments.
- `get_public_format_dims` is foreign code, so `dst_dims` (line 226, passed to the compute at line 249) is not modelled.
- `getenv` is I/O. Its value is a parameter, and an unset variable reads as the empty string.
- The thread safety of the function-local static is concurrency. The cache is modelled sequentially.
- `CpuTimer`, `TAO_VLOG` logging and the bandwidth/GFLOPS figures are observational I/O and floating point.
- `TAO_RAL_API` registration and the memref ABI are plumbing. A memref is its element type, sizes and strides; there is no data pointer.
- Memory of the operands and the data the kernels compute are not modelled.
- Ranks are limited. Convolution is modelled for 2 <= N <= 26, so the axis markers stay letters; registered kernels use N = 3 and 4. Plain GEMM is rank 2. Batched GEMM is any rank above 2; 3 and 4 are registered.
- `int`/`int64_t` narrowing in the backend helpers (266-268, 362-365) and int32 metadata are not modelled. All integers are unbounded.
- Conv.RalConv: after a failed parse the compute receives a partly filled, default-constructed `ConvParams`. This is recorded as `None` rather than modelling those fields.
- tao/tao_bridge/tf/defs.cc holds four string constants and no logic, so it is not part of this model.
- `isEmptyMemref` is defined outside the modelled file. "Some size is 0" is assumed for it (`Common.IsEmptyMemref`).

## Findings

| source | as written | input that shows it | evidently intended | confidence | as-written member | corrected member |
|---|---|---|---|---|---|---|
| tao_compiler/mlir/xla/ral/context/common_context_impl_mkldnn.cc:242-248 | When `parseConvParams` returns false, `ral_conv` signals "invalid conv params" but has no `return`. It goes on to `convolution_forward::compute` with parameters the parse never finished. | Non-empty NHWC operands whose input-layout metadata is [1, 0, 2, 3] ("bacd", unknown to `str2format`) | Return after signalling, as `ral_gemm` and `ral_batch_gemm` do after every error | not executed | Conv.RalConv, Conv.ConvComputesAfterParseFailure | Conv.RalConvIntended |

=== FILE: batch_gemm.dfy ===
/** The batched GEMM entry point `ral_batch_gemm`: operands of one rank
    N > 2 whose leading N-2 axes form the batch and whose last two axes hold
    one matrix per batch entry; and the arguments of its two backends. */
module BatchGemm {
  import opened Common
  import opened KernelMode
  import opened Layout
  import opened Dispatch
  import opened Gemm

  /** The number of matrices in a batched operand: the product of all
      sizes but the last two. */
  function BatchSize(sizes: seq<int>): (batch: int)
    requires |sizes| >= 2
    ensures batch * (sizes[|sizes| - 2] * sizes[|sizes| - 1]) == Product(sizes)
    ensures batch == 0 <==> 0 in sizes[..|sizes| - 2]
  {
    ProductSplitLastTwo(sizes);
    ProductZero(sizes[..|sizes| - 2]);
    Product(sizes[..|sizes| - 2])
  }

  /** `GetBatchSize`: multiplies the leading N-2 sizes in a loop. */
  method GetBatchSize(t: MemRef) returns (batch: int)
    requires |t.sizes| >= 2
    ensures batch == BatchSize(t.sizes)
    ensures batch * (t.sizes[|t.sizes| - 2] * t.sizes[|t.sizes| - 1]) == Elements(t)
  {
    batch := 1;
    var i := 0;
    while i < |t.sizes| - 2
      invariant 0 <= i <= |t.sizes| - 2
      invariant batch == Product(t.sizes[..i])
    {
      assert t.sizes[..i + 1][..i] == t.sizes[..i];
      batch := batch * t.sizes[i];
      i := i + 1;
    }
  }

  /** Operands of one rank N > 2. */
  predicate Batched(a: MemRef, b: MemRef, c: MemRef) {
    var n := |a.sizes|;
    n > 2 && a.HasRank(n) && b.HasRank(n) && c.HasRank(n)
  }

  /** `mkl_ral_batch_gemm`: one strided-batch sgemm with as many matrices
      as A's batch holds, m and k from A, n from B, leading dimensions from
      the row strides of the matrices, alpha 1, beta 0, and consecutive
      matrices m*k, k*n and m*n elements apart. */
  function MklBatchGemm(a: MemRef, b: MemRef, c: MemRef, tpA: bool, tpB: bool): (call: MklCall)
    requires Batched(a, b, c)
    ensures call.CblasSgemmBatchStrided?
    ensures var args := call.batchArgs;
            && args.batch * args.strideA == Elements(a)
            && args.strideA == args.gemm.m * args.gemm.k
            && args.strideB == args.gemm.k * args.gemm.n
            && args.strideC == args.gemm.m * args.gemm.n
            && args.gemm.alpha == 1 && args.gemm.beta == 0
            && args.gemm.transA == tpA && args.gemm.transB == tpB
    ensures var args := call.batchArgs;
            var n := |a.sizes|;
            && args.batch == BatchSize(a.sizes)
            && (args.gemm.m, args.gemm.k) == OpShape(a, tpA)
            && args.gemm.n == OpShape(b, tpB).1
            && args.gemm.lda == a.strides[n - 2]
            && args.gemm.ldb == b.strides[n - 2]
            && args.gemm.ldc == c.strides[n - 2]
  {
    var n := |a.sizes|;
    var batch := BatchSize(a.sizes);
    var (m, k) := OpShape(a, tpA);
    var cols := OpShape(b, tpB).1;
    ProductSplitLastTwo(a.sizes);
    OpShapeCovers(a, tpA);
    var gemm := GemmArgs(tpA, tpB, m, cols, k, 1, 0, a.strides[n - 2], b.strides[n - 2], c.strides[n - 2]);
    CblasSgemmBatchStrided(BatchStridedArgs(gemm, m * k, k * cols, m * cols, batch))
  }

  /** `onednn_ral_batch_gemm`: one matmul over 3-d views {batch, m, k},
      {batch, k, n} and {batch, m, n}, a transposed operand being described
      by the `acb` layout, with each operand's element type. */
  function OneDnnBatchGemm(a: MemRef, b: MemRef, c: MemRef, tpA: bool, tpB: bool): (call: OneDnnCall)
    requires Batched(a, b, c)
    ensures call.MatmulForward?
    ensures |call.src.dims| == 3 && Product(call.src.dims) == Elements(a)
    ensures call.src.format == (if tpA then Acb else Abc)
    ensures call.weight.format == (if tpB then Acb else Abc)
    ensures call.dst.format == Abc
    ensures call.src.dtype == F32 <==> a.elem == Float
    ensures call.weight.dtype == F32 <==> b.elem == Float
    ensures call.dst.dtype == F32 <==> c.elem == Float
    ensures var batch := BatchSize(a.sizes);
            var (m, k) := OpShape(a, tpA);
            var cols := OpShape(b, tpB).1;
            && call.src.dims == [batch, m, k]
            && call.weight.dims == [batch, k, cols]
            && call.dst.dims == [batch, m, cols]
  {
    var batch := BatchSize(a.sizes);
    var (m, k) := OpShape(a, tpA);
    var cols := OpShape(b, tpB).1;
    ProductSplitLastTwo(a.sizes);
    OpShapeCovers(a, tpA);
    ProductOfThree(batch, m, k);
    MatmulForward(
      TensorDesc([batch, m, k], ToDataType(a.elem), if tpA then Acb else Abc),
      TensorDesc([batch, k, cols], ToDataType(b.elem), if tpB then Acb else Abc),
      TensorDesc([batch, m, cols], ToDataType(c.elem), Abc))
  }

  /** The batch sizes of A, B and C agree. */
  predicate BatchesMatch(a: MemRef, b: MemRef, c: MemRef)
    requires Batched(a, b, c)
  {
    BatchSize(a.sizes) == BatchSize(b.sizes) && BatchSize(a.sizes) == BatchSize(c.sizes)
  }

  /** C is m x n and op(B) has A's contraction dim. */
  predicate ShapesMatch(a: MemRef, b: MemRef, c: MemRef, tpA: bool, tpB: bool)
    requires Batched(a, b, c)
  {
    var n := |a.sizes|;
    && c.sizes[n - 2] == OpShape(a, tpA).0
    && c.sizes[n - 1] == OpShape(b, tpB).1
    && ContractionMatches(a, b, tpA, tpB)
  }

  /** `ral_batch_gemm`, given the mode cache and what `getenv` would return;
      yields the outcome and the cache after the call. In order: an empty
      operand is an error, unequal batch sizes are an error, a C that is
      not m x n or a B whose contraction dim is not k is an error; then the
      mode picks the backend, autotuning being rejected. */
  function RalBatchGemm(cache: Option<Mode>, env: string, a: MemRef, b: MemRef, c: MemRef,
                        tpA: bool, tpB: bool): (r: (Outcome, Option<Mode>))
    requires Batched(a, b, c)
    ensures r.0 == Error([BatchGemmInputError]) <==> AnyEmpty(a, b, c)
    ensures r.0 == Error([BatchSizeMismatch]) <==> !AnyEmpty(a, b, c) && !BatchesMatch(a, b, c)
    ensures r.0 == Error([BatchGemmParamsMismatch]) <==>
              !AnyEmpty(a, b, c) && BatchesMatch(a, b, c) && !ShapesMatch(a, b, c, tpA, tpB)
    ensures r.0 == Error([BatchGemmAutotuneUnsupported]) <==>
              !AnyEmpty(a, b, c) && BatchesMatch(a, b, c) && ShapesMatch(a, b, c, tpA, tpB) &&
              GetMode(cache, env).0 == PreferTuning
    ensures r.0.CallMKL? <==>
              !AnyEmpty(a, b, c) && BatchesMatch(a, b, c) && ShapesMatch(a, b, c, tpA, tpB) &&
              GetMode(cache, env).0 == PreferMKL
    ensures r.0.CallOneDNN? <==>
              !AnyEmpty(a, b, c) && BatchesMatch(a, b, c) && ShapesMatch(a, b, c, tpA, tpB) &&
              GetMode(cache, env).0 == PreferOneDNN
    ensures r.0.CallMKL? ==> r.0.mkl == MklBatchGemm(a, b, c, tpA, tpB)
    ensures r.0.CallOneDNN? ==> r.0.dnn == OneDnnBatchGemm(a, b, c, tpA, tpB)
    ensures r.0.Error? || r.0.CallMKL? || r.0.CallOneDNN?
    ensures r.0.Error? && r.0 != Error([BatchGemmAutotuneUnsupported]) ==> r.1 == cache
    ensures r.1 == if AnyEmpty(a, b, c) || !BatchesMatch(a, b, c) || !ShapesMatch(a, b, c, tpA, tpB) then cache
                   else GetMode(cache, env).1
  {
    if AnyEmpty(a, b, c) then (Error([BatchGemmInputError]), cache)
    else if !BatchesMatch(a, b, c) then (Error([BatchSizeMismatch]), cache)
    else if !ShapesMatch(a, b, c, tpA, tpB) then (Error([BatchGemmParamsMismatch]), cache)
    else
      var (mode, cache') := GetMode(cache, env);
      match mode
      case PreferOneDNN => (CallOneDNN(OneDnnBatchGemm(a, b, c, tpA, tpB)), cache')
      case PreferMKL => (CallMKL(MklBatchGemm(a, b, c, tpA, tpB)), cache')
      case PreferTuning => (Error([BatchGemmAutotuneUnsupported]), cache')
  }

  /** A dispatched strided batch covers all three operands exactly: the
      batch count times each per-matrix stride is that operand's element
      count. */
  lemma DispatchedBatchCoversOperands(cache: Option<Mode>, env: string, a: MemRef, b: MemRef, c: MemRef,
                                      tpA: bool, tpB: bool)
    requires Batched(a, b, c)
    requires RalBatchGemm(cache, env, a, b, c, tpA, tpB).0.CallMKL?
    ensures var args := RalBatchGemm(cache, env, a, b, c, tpA, tpB).0.mkl.batchArgs;
            && args.batch * args.strideA == Elements(a)
            && args.batch * args.strideB == Elements(b)
            && args.batch * args.strideC == Elements(c)
  {
    var args := MklBatchGemm(a, b, c, tpA, tpB).batchArgs;
    ProductSplitLastTwo(b.sizes);
    ProductSplitLastTwo(c.sizes);
    OpShapeCovers(b, tpB);
    assert args.strideB == OpShape(b, tpB).0 * OpShape(b, tpB).1;
  }

  /** A dispatched matmul's 3-d views hold exactly the operands' elements. */
  lemma DispatchedMatmulCoversOperands(cache: Option<Mode>, env: string, a: MemRef, b: MemRef, c: MemRef,
                                       tpA: bool, tpB: bool)
    requires Batched(a, b, c)
    requires RalBatchGemm(cache, env, a, b, c, tpA, tpB).0.CallOneDNN?
    ensures var call := RalBatchGemm(cache, env, a, b, c, tpA, tpB).0.dnn;
            && Product(call.src.dims) == Elements(a)
            && Product(call.weight.dims) == Elements(b)
            && Product(call.dst.dims) == Elements(c)
  {
    var call := OneDnnBatchGemm(a, b, c, tpA, tpB);
    var batch := BatchSize(a.sizes);
    ProductSplitLastTwo(b.sizes);
    ProductSplitLastTwo(c.sizes);
    OpShapeCovers(b, tpB);
    var (m, k) := OpShape(a, tpA);
    var cols := OpShape(b, tpB).1;
    ProductOfThree(batch, k, cols);
    ProductOfThree(batch, m, cols);
  }

  /** Batches of 2, 3 and 2 matrices are rejected as a batch mismatch
      before any shape is compared. */
  lemma BatchMismatchExample()
    ensures var a := MemRef(Float, [2, 4, 5], [20, 5, 1]);
            var b := MemRef(Float, [3, 5, 6], [30, 6, 1]);
            var c := MemRef(Float, [2, 4, 6], [24, 6, 1]);
            RalBatchGemm(None, "", a, b, c, false, false) == (Error([BatchSizeMismatch]), None)
  {
    var s: seq<int> := [2, 4, 5];
    assert s[..1] == [2] && [2][..0] == [];
    var t: seq<int> := [3, 5, 6];
    assert t[..1] == [3] && [3][..0] == [];
  }
}

=== FILE: common.dfy ===
/** Vocabulary shared by the CPU math-kernel front end: optional values,
    computations whose behaviour the C++ leaves undefined, memory-reference
    descriptors without their data pointer, element types, and the integer
    arithmetic of the source (products of sizes, truncating division). */
module Common {

  /** An optional value; the kernel-mode cache holds `None` until first use. */
  datatype Option<+T> = None | Some(value: T)

  /** The result of a step whose behaviour the C++ defines, or `Undefined`
      where the C++ reads or writes outside an array, divides by zero, or
      reads a character string that has no terminating NUL. */
  datatype Defined<+T> = Ok(value: T) | Undefined {

    predicate IsFailure() {
      Undefined?
    }

    function PropagateFailure<U>(): Defined<U>
      requires Undefined?
    {
      Undefined
    }

    function Extract(): T
      requires Ok?
    {
      value
    }
  }

  /** The element type a memref is instantiated with. Every registered kernel
      uses `float`; `OtherElem` stands for any other template argument. */
  datatype ElemType = Float | OtherElem

  /** The oneDNN element data type (`ideep::data_type`). */
  datatype DataType = F32 | UndefType

  /** `toDataType<T>()`: only `float` has a oneDNN data type. */
  function ToDataType(t: ElemType): (d: DataType)
    ensures d != UndefType <==> t == Float
  {
    match t
    case Float => F32
    case OtherElem => UndefType
  }

  /** A memory-reference descriptor `MemRefType<T, N>` without its data
      pointer: the element type, N sizes and N strides. */
  datatype MemRef = MemRef(elem: ElemType, sizes: seq<int>, strides: seq<int>) {

    /** The descriptor has the compile-time rank `n`. */
    predicate HasRank(n: nat) {
      |sizes| == n && |strides| == n
    }
  }

  /** `isEmptyMemref` is defined outside the modelled file; it is taken to
      hold exactly when some axis has size 0, i.e. when the buffer holds no
      elements (`EmptyIffNoElements`). */
  predicate IsEmptyMemref(t: MemRef) {
    0 in t.sizes
  }

  /** Some operand of a three-operand kernel holds no elements. */
  predicate AnyEmpty(a: MemRef, b: MemRef, c: MemRef) {
    IsEmptyMemref(a) || IsEmptyMemref(b) || IsEmptyMemref(c)
  }

  /** Product of a sequence of sizes, multiplied left to right. */
  function Product(s: seq<int>): int {
    if |s| == 0 then 1 else Product(s[..|s| - 1]) * s[|s| - 1]
  }

  /** Number of elements a memref holds. */
  function Elements(t: MemRef): int {
    Product(t.sizes)
  }

  /** A product is zero exactly when one of its factors is. */
  lemma {:induction false} ProductZero(s: seq<int>)
    ensures Product(s) == 0 <==> 0 in s
  {
    if |s| > 0 {
      var init := s[..|s| - 1];
      ProductZero(init);
      assert s == init + [s[|s| - 1]];
      assert 0 in s <==> 0 in init || s[|s| - 1] == 0;
    }
  }

  /** An operand is empty exactly when it holds no elements. */
  lemma EmptyIffNoElements(t: MemRef)
    ensures IsEmptyMemref(t) <==> Elements(t) == 0
  {
    ProductZero(t.sizes);
  }

  /** Splitting off the last two axes: a rank-n tensor is a batch of
      `Product(s[..n-2])` matrices of `s[n-2]` by `s[n-1]` elements. */
  lemma ProductSplitLastTwo(s: seq<int>)
    requires |s| >= 2
    ensures Product(s) == Product(s[..|s| - 2]) * (s[|s| - 2] * s[|s| - 1])
  {
    var n := |s|;
    var init, batch := s[..n - 1], Product(s[..n - 2]);
    assert Product(s) == Product(init) * s[n - 1];
    assert init[..n - 2] == s[..n - 2];
    assert Product(init) == batch * s[n - 2];
    assert (batch * s[n - 2]) * s[n - 1] == batch * (s[n - 2] * s[n - 1]);
  }

  /** The element count of a 3-d view. */
  lemma ProductOfThree(x: int, y: int, z: int)
    ensures Product([x, y, z]) == x * (y * z)
  {
    assert [x, y, z][..2] == [x, y] && [x, y][..1] == [x] && [x][..0] == [];
    assert Product([x]) == x;
    assert Product([x, y]) == x * y;
    assert (x * y) * z == x * (y * z);
  }

  function Abs(x: int): int {
    if x < 0 then -x else x
  }

  /** Integer division as C++ performs it: the quotient is truncated toward
      zero, so the remainder takes the sign of the dividend. */
  function TruncDiv(a: int, b: int): (q: int)
    requires b != 0
    ensures 0 <= a ==> 0 <= a - q * b < Abs(b)
    ensures a < 0 ==> -Abs(b) < a - q * b <= 0
  {
    var x: nat := if a < 0 then -a else a;
    var y: nat := if b < 0 then -b else b;
    var u := x / y;
    DivisionRemainder(x, y);
    MulNeg(u, y);
    if 0 <= a && 0 < b then
      assert a - u * b == x - u * y;
      u
    else if a < 0 && b < 0 then
      assert u * b == -(u * y);
      assert a - u * b == -(x - u * y);
      u
    else if 0 <= a then
      assert (-u) * b == u * y;
      assert a - (-u) * b == x - u * y;
      -u
    else
      assert (-u) * b == -(u * y);
      assert a - (-u) * b == -(x - u * y);
      -u
  }

  lemma DivisionRemainder(x: nat, y: nat)
    requires y > 0
    ensures 0 <= x - (x / y) * y < y
  {
  }

  lemma MulNeg(u: int, v: int)
    ensures (-u) * v == -(u * v) && u * (-v) == -(u * v) && (-u) * (-v) == u * v
  {
  }

  /** Truncation differs from Dafny's Euclidean division on a negative
      dividend: C++ gives -7 / 2 == -3, Euclidean division gives -4. */
  lemma TruncDivNegativeDividend()
    ensures TruncDiv(-7, 2) == -3 && (-7) / 2 == -4
    ensures TruncDiv(8, 4) == 2 && TruncDiv(7, 4) == 1
  {
  }
}

=== FILE: conv.dfy ===
/** The convolution entry point `ral_conv` and its metadata decoder
    `parseConvParams`. For operands of rank N the metadata holds, in order:
    N input-layout entries, N filter-layout entries, N output-layout
    entries, N-2 strides and N-2 dilations, 5N-4 entries in all, consumed
    by a single cursor. Padding comes from its own array as (low, high)
    pairs. */
module Conv {
  import opened Common
  import opened Layout
  import opened Dispatch

  /** How `parseConvParams` returns: `true` with the parameters filled in, or
      `false` after signalling `msg`. `cursor` is the number of metadata
      entries read when it returned. */
  datatype ParseResult =
    | Parsed(params: ConvParams, cursor: nat)
    | ParseFailed(msg: Failure, cursor: nat)

  /** Input, filter and output share the compile-time rank N, here at least
      2 (there are N-2 spatial axes) and small enough for the axis markers
      to stay letters. */
  predicate ConvOperands(input: MemRef, kernel: MemRef, output: MemRef) {
    var n := |input.sizes|;
    2 <= n <= MaxRank && input.HasRank(n) && kernel.HasRank(n) && output.HasRank(n)
  }

  /** The low and high padding of each of `spatial` axes, read as pairs. */
  function ReadPadding(padding: seq<int>, spatial: nat): (r: Defined<(seq<int>, seq<int>)>)
    ensures r.Ok? <==> 2 * spatial <= |padding|
    ensures r.Ok? ==> |r.value.0| == spatial && |r.value.1| == spatial
    ensures r.Ok? ==> forall i :: 0 <= i < spatial ==>
                        r.value.0[i] == padding[2 * i] && r.value.1[i] == padding[2 * i + 1]
  {
    if |padding| < 2 * spatial then Undefined
    else Ok((seq(spatial, i requires 0 <= i < spatial => padding[2 * i]),
             seq(spatial, i requires 0 <= i < spatial => padding[2 * i + 1])))
  }

  /** `sizes[metadata[q]]`, with no bounds check in the source. */
  function SizeAt(sizes: seq<int>, md: seq<int>, q: nat): (r: Defined<int>)
    ensures r.Ok? <==> q < |md| && 0 <= md[q] < |sizes|
    ensures r.Ok? ==> r.value == sizes[md[q]]
  {
    if q < |md| && 0 <= md[q] < |sizes| then Ok(sizes[md[q]]) else Undefined
  }

  /** The metadata entries at positions `from..to`. */
  function Slice(md: seq<int>, from: nat, to: nat): (r: Defined<seq<int>>)
    requires from <= to
    ensures r.Ok? <==> to <= |md|
    ensures r.Ok? ==> r.value == md[from..to]
  {
    if to <= |md| then Ok(md[from..to]) else Undefined
  }

  /** The format buffer as allocated: N + 1 NUL characters. */
  function FreshBuffer(n: nat): (b: seq<char>)
    ensures |b| == n + 1 && forall i :: 0 <= i < |b| ==> b[i] == NUL
  {
    seq(n + 1, _ => NUL)
  }

  /** The three layouts of a convolution, once decoded: either a layout
      that named no known format, with the message and the cursor at that
      point, or all three tags together with the input channels `ic` and
      the filter's input channels `kc` read along the way. */
  datatype Layouts =
    | BadLayout(msg: Failure, cursor: nat)
    | GoodLayouts(inputFormat: FormatTag, filterFormat: FormatTag, outputFormat: FormatTag, ic: int, kc: int)

  /** The input-layout decode into the freshly allocated buffer. Iteration
      1 of its loop also reads the input channels `ic`, at the axis metadata
      entry 1 names. */
  function DecodeInput(input: MemRef, md: seq<int>): (r: Defined<(Decoded, int)>)
    requires 2 <= |input.sizes| <= MaxRank
    ensures r.Ok? ==> var n := |input.sizes|;
              && n <= |md| && |r.value.0.buffer| == n + 1
              && 0 <= md[1] < n && r.value.1 == input.sizes[md[1]]
    ensures r.Ok? ==> var n := |input.sizes|;
              && InBuffer(md, 0, n, n + 1)
              && Placed(FreshBuffer(n), md, 0, Markers(n), r.value.0.buffer)
              && CString(r.value.0.buffer).Ok?
              && r.value.0.format == Str2Format(CString(r.value.0.buffer).value)
  {
    var n := |input.sizes|;
    var ic :- SizeAt(input.sizes, md, 1);
    var d :- DecodeLayout(FreshBuffer(n), md, 0, Markers(n));
    DecodeLayoutTag(FreshBuffer(n), md, 0, Markers(n));
    Ok((d, ic))
  }

  /** The filter-layout decode, into the buffer the input decode left. Its
      first entry also names the axis of the filter's input channels `kc`. */
  function DecodeFilter(kernel: MemRef, md: seq<int>, buffer: seq<char>): (r: Defined<(Decoded, int)>)
    requires 2 <= |kernel.sizes| <= MaxRank && |kernel.sizes| <= |md|
    ensures r.Ok? ==> var n := |kernel.sizes|;
              && 2 * n <= |md| && |r.value.0.buffer| == |buffer|
              && 0 <= md[n] < n && r.value.1 == kernel.sizes[md[n]]
    ensures r.Ok? ==> var n := |kernel.sizes|;
              && InBuffer(md, n, 2 * n, |buffer|)
              && Placed(buffer, md, n, FilterMarkers(n), r.value.0.buffer)
              && CString(r.value.0.buffer).Ok?
              && r.value.0.format == Str2Format(CString(r.value.0.buffer).value)
  {
    var n := |kernel.sizes|;
    var kc :- SizeAt(kernel.sizes, md, n);
    var d :- DecodeLayout(buffer, md, n, FilterMarkers(n));
    DecodeLayoutTag(buffer, md, n, FilterMarkers(n));
    Ok((d, kc))
  }

  /** The three layout decodes of `parseConvParams`, sharing one buffer
      that is never cleared between them; each stops the parse if its
      layout names no known format. */
  function DecodeLayouts(input: MemRef, kernel: MemRef, md: seq<int>): (r: Defined<Layouts>)
    requires 2 <= |input.sizes| <= MaxRank && |kernel.sizes| == |input.sizes|
    ensures r.Ok? && r.value.GoodLayouts? ==>
              var n := |input.sizes|;
              && 3 * n <= |md|
              && 0 <= md[1] < n && r.value.ic == input.sizes[md[1]]
              && 0 <= md[n] < n && r.value.kc == kernel.sizes[md[n]]
              && r.value.inputFormat != UndefFormat
              && r.value.filterFormat != UndefFormat
              && r.value.outputFormat != UndefFormat
    ensures r.Ok? && r.value.BadLayout? ==>
              var n := |input.sizes|;
              || (r.value.msg == InvalidInputFormat && r.value.cursor == n)
              || (r.value.msg == InvalidFilterFormat && r.value.cursor == 2 * n)
              || (r.value.msg == InvalidOutputFormat && r.value.cursor == 3 * n)
    ensures r.Ok? && r.value.BadLayout? ==> r.value.cursor <= |md|
    ensures r.Ok? ==>
              var n := |input.sizes|;
              var inDec := DecodeInput(input, md);
              && inDec.Ok?
              && (r.value == BadLayout(InvalidInputFormat, n) <==> inDec.value.0.format == UndefFormat)
              && (inDec.value.0.format != UndefFormat ==>
                    var fDec := DecodeFilter(kernel, md, inDec.value.0.buffer);
                    && fDec.Ok?
                    && (r.value == BadLayout(InvalidFilterFormat, 2 * n) <==> fDec.value.0.format == UndefFormat)
                    && (fDec.value.0.format != UndefFormat ==>
                          var outDec := DecodeLayout(fDec.value.0.buffer, md, 2 * n, Markers(n));
                          && outDec.Ok?
                          && (r.value == BadLayout(InvalidOutputFormat, 3 * n) <==> outDec.value.format == UndefFormat)
                          && (outDec.value.format != UndefFormat ==>
                                r.value == GoodLayouts(inDec.value.0.format, fDec.value.0.format,
                                                       outDec.value.format, inDec.value.1, fDec.value.1))))
  {
    var n := |input.sizes|;
    var (inDec, ic) :- DecodeInput(input, md);
    if inDec.format == UndefFormat then Ok(BadLayout(InvalidInputFormat, n)) else
    var (fDec, kc) :- DecodeFilter(kernel, md, inDec.buffer);
    if fDec.format == UndefFormat then Ok(BadLayout(InvalidFilterFormat, 2 * n)) else
    var outDec :- DecodeLayout(fDec.buffer, md, 2 * n, Markers(n));
    if outDec.format == UndefFormat then Ok(BadLayout(InvalidOutputFormat, 3 * n)) else
    Ok(GoodLayouts(inDec.format, fDec.format, outDec.format, ic, kc))
  }

  /** Everything a successful parse promises about the parameters it
      returns: strides and dilations are the metadata entries after the
      three layouts, padding is split into (low, high) pairs, groups is the
      truncating quotient of the input channels (the input size at the axis
      metadata entry 1 names) by the filter's input channels (the kernel size
      at the axis entry N names), all three layouts are defined, and every
      descriptor is f32 with the memref's sizes and the decoded layout. */
  ghost predicate ParsedFrom(p: ConvParams, input: MemRef, kernel: MemRef, padding: seq<int>,
                             output: MemRef, md: seq<int>)
    requires ConvOperands(input, kernel, output)
  {
    var n := |input.sizes|;
    && 5 * n - 4 <= |md|
    && p.strides == md[3 * n .. 4 * n - 2]
    && p.dilates == md[4 * n - 2 .. 5 * n - 4]
    && 2 * (n - 2) <= |padding|
    && |p.paddingL| == n - 2 && |p.paddingR| == n - 2
    && (forall i :: 0 <= i < n - 2 ==> p.paddingL[i] == padding[2 * i] && p.paddingR[i] == padding[2 * i + 1])
    && 0 <= md[1] < n && 0 <= md[n] < n && kernel.sizes[md[n]] != 0
    && p.groups == TruncDiv(input.sizes[md[1]], kernel.sizes[md[n]])
    && p.inputFormat != UndefFormat && p.filterFormat != UndefFormat && p.outputFormat != UndefFormat
    && input.elem == Float && kernel.elem == Float && output.elem == Float
    && p.src == TensorDesc(input.sizes, F32, p.inputFormat)
    && p.weight == TensorDesc(kernel.sizes, F32, p.filterFormat)
    && p.dst == TensorDesc(output.sizes, F32, p.outputFormat)
  }

  /** The messages a failed parse can signal, with the cursor at that
      point: a bad layout stops right after that layout's N entries, a bad
      element type after all 5N-4. */
  ghost predicate FailedAt(f: ParseResult, n: nat)
    requires f.ParseFailed?
  {
    || (f.msg == InvalidInputFormat && f.cursor == n)
    || (f.msg == InvalidFilterFormat && f.cursor == 2 * n)
    || (f.msg == InvalidOutputFormat && f.cursor == 3 * n)
    || (f.msg in {InvalidInputDtype, InvalidFilterDtype, InvalidOutputDtype} && f.cursor == 5 * n - 4)
  }

  /** The element-type checks after the metadata is consumed: input, then
      filter, then output. */
  function CheckDtypes(input: MemRef, kernel: MemRef, output: MemRef): (r: Option<Failure>)
    ensures r == None <==> input.elem == Float && kernel.elem == Float && output.elem == Float
    ensures r == Some(InvalidInputDtype) <==> input.elem != Float
    ensures r == Some(InvalidFilterDtype) <==> input.elem == Float && kernel.elem != Float
    ensures r == Some(InvalidOutputDtype) <==>
              input.elem == Float && kernel.elem == Float && output.elem != Float
  {
    if ToDataType(input.elem) == UndefType then Some(InvalidInputDtype)
    else if ToDataType(kernel.elem) == UndefType then Some(InvalidFilterDtype)
    else if ToDataType(output.elem) == UndefType then Some(InvalidOutputDtype)
    else None
  }

  /** What `parseConvParams` does once the metadata is consumed: compute
      the groups, check the element types, and assemble the parameters. */
  function Finish(input: MemRef, kernel: MemRef, output: MemRef, pads: (seq<int>, seq<int>),
                  layouts: Layouts, strides: seq<int>, dilates: seq<int>, cursor: nat): (r: Defined<ParseResult>)
    requires layouts.GoodLayouts?
    ensures r.Ok? <==> layouts.kc != 0
    ensures r.Ok? ==> r.value.cursor == cursor
    ensures r.Ok? && r.value.ParseFailed? ==>
              r.value.msg in {InvalidInputDtype, InvalidFilterDtype, InvalidOutputDtype}
    ensures r.Ok? && r.value.ParseFailed? ==> Some(r.value.msg) == CheckDtypes(input, kernel, output)
    ensures r.Ok? ==>
              (r.value.Parsed? <==> input.elem == Float && kernel.elem == Float && output.elem == Float)
    ensures r.Ok? && r.value.Parsed? ==>
              var p := r.value.params;
              && p.inputFormat == layouts.inputFormat
              && p.filterFormat == layouts.filterFormat
              && p.outputFormat == layouts.outputFormat
              && p.src == TensorDesc(input.sizes, F32, p.inputFormat)
              && p.weight == TensorDesc(kernel.sizes, F32, p.filterFormat)
              && p.dst == TensorDesc(output.sizes, F32, p.outputFormat)
              && p.strides == strides && p.dilates == dilates
              && p.paddingL == pads.0 && p.paddingR == pads.1
              && p.groups == TruncDiv(layouts.ic, layouts.kc)
  {
    var groups :- if layouts.kc == 0 then Undefined else Ok(TruncDiv(layouts.ic, layouts.kc));
    match CheckDtypes(input, kernel, output)
    case Some(msg) => Ok(ParseFailed(msg, cursor))
    case None =>
      var params := ConvParams(
        layouts.inputFormat, layouts.filterFormat, layouts.outputFormat,
        TensorDesc(input.sizes, F32, layouts.inputFormat),
        TensorDesc(kernel.sizes, F32, layouts.filterFormat),
        TensorDesc(output.sizes, F32, layouts.outputFormat),
        strides, dilates, pads.0, pads.1, groups);
      Ok(Parsed(params, cursor))
  }

  /** `parseConvParams` after the layouts: stop on a bad layout, otherwise
      read the strides and dilations and finish. */
  function ParseTail(input: MemRef, kernel: MemRef, output: MemRef, pads: (seq<int>, seq<int>),
                     layouts: Layouts, md: seq<int>): (r: Defined<ParseResult>)
    requires ConvOperands(input, kernel, output)
    ensures r.Ok? && r.value.Parsed? ==>
              var n := |input.sizes|;
              && layouts.GoodLayouts? && 5 * n - 4 <= |md|
              && r.value.params.strides == md[3 * n .. 4 * n - 2]
              && r.value.params.dilates == md[4 * n - 2 .. 5 * n - 4]
    ensures layouts.BadLayout? ==> r == Ok(ParseFailed(layouts.msg, layouts.cursor))
    ensures layouts.GoodLayouts? ==> (r.Ok? <==> 5 * |input.sizes| - 4 <= |md| && layouts.kc != 0)
    ensures layouts.GoodLayouts? && r.Ok? ==>
              && r.value.cursor == 5 * |input.sizes| - 4
              && (r.value.Parsed? <==> input.elem == Float && kernel.elem == Float && output.elem == Float)
              && (r.value.ParseFailed? ==> r.value.msg in {InvalidInputDtype, InvalidFilterDtype, InvalidOutputDtype})
              && (r.value.ParseFailed? ==> Some(r.value.msg) == CheckDtypes(input, kernel, output))
    ensures r.Ok? && r.value.Parsed? ==>
              var p := r.value.params;
              && p.inputFormat == layouts.inputFormat
              && p.filterFormat == layouts.filterFormat
              && p.outputFormat == layouts.outputFormat
              && p.src == TensorDesc(input.sizes, F32, p.inputFormat)
              && p.weight == TensorDesc(kernel.sizes, F32, p.filterFormat)
              && p.dst == TensorDesc(output.sizes, F32, p.outputFormat)
              && p.paddingL == pads.0 && p.paddingR == pads.1
              && p.groups == TruncDiv(layouts.ic, layouts.kc)
  {
    var n := |input.sizes|;
    match layouts
    case BadLayout(msg, cursor) => Ok(ParseFailed(msg, cursor))
    case GoodLayouts(_, _, _, _, _) =>
      var strides :- Slice(md, 3 * n, 4 * n - 2);
      var dilates :- Slice(md, 4 * n - 2, 5 * n - 4);
      Finish(input, kernel, output, pads, layouts, strides, dilates, 5 * n - 4)
  }

  /** `parseConvParams`. */
  function ParseConvParams(input: MemRef, kernel: MemRef, padding: seq<int>, output: MemRef,
                           md: seq<int>): (r: Defined<ParseResult>)
    requires ConvOperands(input, kernel, output)
    ensures r.Ok? ==> r.value.cursor <= |md|
    ensures r.Ok? && r.value.Parsed? ==> r.value.cursor == 5 * |input.sizes| - 4
    ensures r.Ok? && r.value.ParseFailed? ==> FailedAt(r.value, |input.sizes|)
    ensures r.Ok? && r.value.cursor == 5 * |input.sizes| - 4 ==>
              (r.value.Parsed? <==> input.elem == Float && kernel.elem == Float && output.elem == Float)
    ensures r.Ok? && r.value.Parsed? ==>
              ParsedFrom(r.value.params, input, kernel, padding, output, md)
  {
    var pads :- ReadPadding(padding, |input.sizes| - 2);
    var layouts :- DecodeLayouts(input, kernel, md);
    TailStops(input, kernel, output, pads, md);
    TailParsedFrom(input, kernel, padding, output, md);
    ParseTail(input, kernel, output, pads, layouts, md)
  }

  /** Where the tail stops after a successful layout decode. */
  lemma TailStops(input: MemRef, kernel: MemRef, output: MemRef, pads: (seq<int>, seq<int>), md: seq<int>)
    requires ConvOperands(input, kernel, output)
    requires DecodeLayouts(input, kernel, md).Ok?
    ensures var r := ParseTail(input, kernel, output, pads, DecodeLayouts(input, kernel, md).value, md);
            && (r.Ok? ==> r.value.cursor <= |md|)
            && (r.Ok? && r.value.Parsed? ==> r.value.cursor == 5 * |input.sizes| - 4)
            && (r.Ok? && r.value.ParseFailed? ==> FailedAt(r.value, |input.sizes|))
            && (r.Ok? && r.value.cursor == 5 * |input.sizes| - 4 ==>
                  (r.value.Parsed? <==> input.elem == Float && kernel.elem == Float && output.elem == Float))
  {
    LayoutsStopBeforeTail(input, kernel, md);
  }

  /** A parse that succeeds after reading the padding and the layouts
      carries what it read. */
  lemma TailParsedFrom(input: MemRef, kernel: MemRef, padding: seq<int>, output: MemRef, md: seq<int>)
    requires ConvOperands(input, kernel, output)
    requires ReadPadding(padding, |input.sizes| - 2).Ok?
    requires DecodeLayouts(input, kernel, md).Ok?
    ensures var r := ParseTail(input, kernel, output, ReadPadding(padding, |input.sizes| - 2).value,
                               DecodeLayouts(input, kernel, md).value, md);
            r.Ok? && r.value.Parsed? ==> ParsedFrom(r.value.params, input, kernel, padding, output, md)
  {
  }

  /** The parse follows the layout decodes: a missing padding or layout
      entry leaves it undefined, a bad layout is its failure, a bad element
      type is the first one `CheckDtypes` finds, and a successful parse
      carries the decoded tags. */
  lemma ParseFollowsLayouts(input: MemRef, kernel: MemRef, padding: seq<int>, output: MemRef, md: seq<int>)
    requires ConvOperands(input, kernel, output)
    ensures var r := ParseConvParams(input, kernel, padding, output, md);
            var pads := ReadPadding(padding, |input.sizes| - 2);
            var l := DecodeLayouts(input, kernel, md);
            && (!pads.Ok? || !l.Ok? ==> r.Undefined?)
            && (pads.Ok? && l.Ok? && l.value.BadLayout? ==> r == Ok(ParseFailed(l.value.msg, l.value.cursor)))
            && (r.Ok? && r.value.ParseFailed? && r.value.cursor == 5 * |input.sizes| - 4 ==>
                  Some(r.value.msg) == CheckDtypes(input, kernel, output))
            && (r.Ok? && r.value.Parsed? ==>
                  && l.Ok? && l.value.GoodLayouts?
                  && r.value.params.inputFormat == l.value.inputFormat
                  && r.value.params.filterFormat == l.value.filterFormat
                  && r.value.params.outputFormat == l.value.outputFormat)
  {
    LayoutsStopBeforeTail(input, kernel, md);
  }

  /** A layout decode stops before the entries the tail reads: at rank 2
      the input layout spells a two-letter name, which no format has, so
      the stop at 3N = 5N-4 cannot happen. */
  lemma LayoutsStopBeforeTail(input: MemRef, kernel: MemRef, md: seq<int>)
    requires 2 <= |input.sizes| <= MaxRank && |kernel.sizes| == |input.sizes|
    ensures var l := DecodeLayouts(input, kernel, md);
            l.Ok? && l.value.BadLayout? ==> l.value.cursor < 5 * |input.sizes| - 4
  {
    var n := |input.sizes|;
    var inDec := DecodeInput(input, md);
    if n == 2 && inDec.Ok? {
      var s := CString(inDec.value.0.buffer);
      assert s.Ok? && |s.value| < 3;
      assert inDec.value.0.format == UndefFormat;
    }
  }

  /** The layout decodes read no metadata entry at or past the cursor they
      stop at. */
  lemma DecodeLayoutsReadsOnlyConsumed(input: MemRef, kernel: MemRef, md: seq<int>, md': seq<int>, c: nat)
    requires 2 <= |input.sizes| <= MaxRank && |kernel.sizes| == |input.sizes|
    requires DecodeLayouts(input, kernel, md).Ok?
    requires var l := DecodeLayouts(input, kernel, md).value;
             c == (if l.BadLayout? then l.cursor else 3 * |input.sizes|)
    requires c <= |md| && c <= |md'| && forall q :: 0 <= q < c ==> md[q] == md'[q]
    ensures DecodeLayouts(input, kernel, md') == DecodeLayouts(input, kernel, md)
  {
    ConsumedStages(input, kernel, md);
    StagesReadOnlyConsumed(input, kernel, md, md', c);
    StagesDetermineLayouts(input, kernel, md, md');
  }

  /** How far the layout decodes read: the filter entries only once the
      input layout is known, the output entries only once the filter layout
      is known too. */
  predicate ReadsThrough(input: MemRef, kernel: MemRef, md: seq<int>, c: nat)
    requires 2 <= |input.sizes| <= MaxRank && |kernel.sizes| == |input.sizes|
  {
    var n := |input.sizes|;
    var inDec := DecodeInput(input, md);
    && n <= c && inDec.Ok?
    && (inDec.value.0.format != UndefFormat ==>
          && 2 * n <= c && 2 * n <= |md|
          && var filter := DecodeFilter(kernel, md, inDec.value.0.buffer);
             && filter.Ok?
             && (filter.value.0.format != UndefFormat ==> 3 * n <= c))
  }

  /** The cursor a layout decode stops at lies past every entry it read. */
  lemma ConsumedStages(input: MemRef, kernel: MemRef, md: seq<int>)
    requires 2 <= |input.sizes| <= MaxRank && |kernel.sizes| == |input.sizes|
    requires DecodeLayouts(input, kernel, md).Ok?
    ensures var l := DecodeLayouts(input, kernel, md).value;
            ReadsThrough(input, kernel, md, if l.BadLayout? then l.cursor else 3 * |input.sizes|)
  {
  }

  /** Each stage reads only entries before the cursor. */
  lemma StagesReadOnlyConsumed(input: MemRef, kernel: MemRef, md: seq<int>, md': seq<int>, c: nat)
    requires 2 <= |input.sizes| <= MaxRank && |kernel.sizes| == |input.sizes|
    requires ReadsThrough(input, kernel, md, c)
    requires c <= |md| && c <= |md'| && forall q :: 0 <= q < c ==> md[q] == md'[q]
    ensures StagesAgree(input, kernel, md, md')
  {
    var n := |input.sizes|;
    DecodeReadsOnlyItsEntries(FreshBuffer(n), md, md', 0, Markers(n));
    assert DecodeInput(input, md') == DecodeInput(input, md);
    var inDec := DecodeInput(input, md).value.0;
    if inDec.format != UndefFormat {
      var filter := DecodeFilter(kernel, md, inDec.buffer);
      FilterReadsOnlyConsumed(kernel, md, md', inDec.buffer);
      if filter.value.0.format != UndefFormat {
        DecodeReadsOnlyItsEntries(filter.value.0.buffer, md, md', 2 * n, Markers(n));
      }
    }
  }

  /** The three stages decode alike on `md` and `md'`. */
  predicate StagesAgree(input: MemRef, kernel: MemRef, md: seq<int>, md': seq<int>)
    requires 2 <= |input.sizes| <= MaxRank && |kernel.sizes| == |input.sizes|
  {
    var n := |input.sizes|;
    var inDec := DecodeInput(input, md);
    && DecodeInput(input, md') == inDec
    && (inDec.Ok? && inDec.value.0.format != UndefFormat && n <= |md| && n <= |md'| ==>
          && DecodeFilter(kernel, md', inDec.value.0.buffer) == DecodeFilter(kernel, md, inDec.value.0.buffer)
          && var filter := DecodeFilter(kernel, md, inDec.value.0.buffer);
             (filter.Ok? && filter.value.0.format != UndefFormat && 2 * n <= |md| && 2 * n <= |md'| ==>
                DecodeLayout(filter.value.0.buffer, md', 2 * n, Markers(n)) ==
                DecodeLayout(filter.value.0.buffer, md, 2 * n, Markers(n))))
  }

  /** The filter decode reads only the 2N entries before its end. */
  lemma FilterReadsOnlyConsumed(kernel: MemRef, md: seq<int>, md': seq<int>, buffer: seq<char>)
    requires 2 <= |kernel.sizes| <= MaxRank
    requires 2 * |kernel.sizes| <= |md| && 2 * |kernel.sizes| <= |md'|
    requires forall q :: 0 <= q < 2 * |kernel.sizes| ==> md[q] == md'[q]
    ensures DecodeFilter(kernel, md', buffer) == DecodeFilter(kernel, md, buffer)
  {
    var n := |kernel.sizes|;
    DecodeReadsOnlyItsEntries(buffer, md, md', n, FilterMarkers(n));
  }

  /** The layout decodes depend on the metadata only through their three
      stages: two metadata sequences whose stages agree decode alike. */
  lemma StagesDetermineLayouts(input: MemRef, kernel: MemRef, md: seq<int>, md': seq<int>)
    requires 2 <= |input.sizes| <= MaxRank && |kernel.sizes| == |input.sizes|
    requires StagesAgree(input, kernel, md, md')
    ensures DecodeLayouts(input, kernel, md') == DecodeLayouts(input, kernel, md)
  {
  }

  /** After good layouts, the rest of the parse reads only the strides
      and dilations. */
  lemma ParseTailReadsOnlyItsEntries(input: MemRef, kernel: MemRef, output: MemRef, pads: (seq<int>, seq<int>),
                                     layouts: Layouts, md: seq<int>, md': seq<int>)
    requires ConvOperands(input, kernel, output)
    requires layouts.GoodLayouts? ==>
               var n := |input.sizes|;
               && 5 * n - 4 <= |md| && 5 * n - 4 <= |md'|
               && forall q :: 3 * n <= q < 5 * n - 4 ==> md[q] == md'[q]
    ensures ParseTail(input, kernel, output, pads, layouts, md') ==
            ParseTail(input, kernel, output, pads, layouts, md)
  {
    var n := |input.sizes|;
    if layouts.GoodLayouts? {
      assert md[3 * n .. 4 * n - 2] == md'[3 * n .. 4 * n - 2];
      assert md[4 * n - 2 .. 5 * n - 4] == md'[4 * n - 2 .. 5 * n - 4];
    }
  }

  /** The parse reads no metadata entry at or past the cursor it returns
      with: in particular a bad layout stops it before any later field is
      read, so changing or dropping those entries changes nothing. */
  lemma ParseReadsOnlyConsumed(input: MemRef, kernel: MemRef, padding: seq<int>, output: MemRef,
                               md: seq<int>, md': seq<int>)
    requires ConvOperands(input, kernel, output)
    requires ParseConvParams(input, kernel, padding, output, md).Ok?
    requires var c := ParseConvParams(input, kernel, padding, output, md).value.cursor;
             c <= |md'| && md'[..c] == md[..c]
    ensures ParseConvParams(input, kernel, padding, output, md') ==
            ParseConvParams(input, kernel, padding, output, md)
  {
    var n := |input.sizes|;
    var c := ParseConvParams(input, kernel, padding, output, md).value.cursor;
    forall q | 0 <= q < c
      ensures md[q] == md'[q]
    {
      assert md[..c][q] == md'[..c][q];
    }
    var pads := ReadPadding(padding, n - 2).value;
    var l := DecodeLayouts(input, kernel, md).value;
    var lc := if l.BadLayout? then l.cursor else 3 * n;
    assert lc <= c;
    DecodeLayoutsReadsOnlyConsumed(input, kernel, md, md', lc);
    assert l.GoodLayouts? ==> c == 5 * n - 4;
    ParseTailReadsOnlyItsEntries(input, kernel, output, pads, l, md, md');
  }

  /** Metadata a well-behaved compiler emits: three permutations of the N
      axes, then the strides and dilations. */
  ghost predicate WellFormedMetadata(n: nat, md: seq<int>) {
    && 5 * n - 4 <= |md|
    && IsPermutation(md, 0, n) && IsPermutation(md, n, n) && IsPermutation(md, 2 * n, n)
  }

  /** The three layouts as each permutation spells them on its own, with
      no buffer shared between them. */
  function SpelledLayouts(input: MemRef, kernel: MemRef, md: seq<int>): Layouts
    requires 2 <= |input.sizes| <= MaxRank && |kernel.sizes| == |input.sizes|
    requires var n := |input.sizes|; 3 * n <= |md| && 0 <= md[1] < n && 0 <= md[n] < n
  {
    var n := |input.sizes|;
    var inputFormat := Str2Format(LayoutName(md, 0, Markers(n)));
    var filterFormat := Str2Format(LayoutName(md, n, FilterMarkers(n)));
    var outputFormat := Str2Format(LayoutName(md, 2 * n, Markers(n)));
    if inputFormat == UndefFormat then BadLayout(InvalidInputFormat, n)
    else if filterFormat == UndefFormat then BadLayout(InvalidFilterFormat, 2 * n)
    else if outputFormat == UndefFormat then BadLayout(InvalidOutputFormat, 3 * n)
    else GoodLayouts(inputFormat, filterFormat, outputFormat, input.sizes[md[1]], kernel.sizes[md[n]])
  }

  /** On well-formed metadata the shared, never-cleared buffer is harmless:
      each layout decodes to what its permutation spells. */
  lemma DecodeLayoutsSpelled(input: MemRef, kernel: MemRef, md: seq<int>)
    requires 2 <= |input.sizes| <= MaxRank && |kernel.sizes| == |input.sizes|
    requires WellFormedMetadata(|input.sizes|, md)
    ensures 0 <= md[1] < |input.sizes| && 0 <= md[|input.sizes|] < |input.sizes|
    ensures DecodeLayouts(input, kernel, md) == Ok(SpelledLayouts(input, kernel, md))
  {
    var n := |input.sizes|;
    DecodeSpellsLayoutName(FreshBuffer(n), md, 0, Markers(n));
    var inDec := DecodeLayout(FreshBuffer(n), md, 0, Markers(n)).value;
    assert 0 <= md[1] < n;
    assert DecodeInput(input, md) == Ok((inDec, input.sizes[md[1]]));
    DecodeSpellsLayoutName(inDec.buffer, md, n, FilterMarkers(n));
    var fDec := DecodeLayout(inDec.buffer, md, n, FilterMarkers(n)).value;
    assert 0 <= md[n] < n;
    assert DecodeFilter(kernel, md, inDec.buffer) == Ok((fDec, kernel.sizes[md[n]]));
    DecodeSpellsLayoutName(fDec.buffer, md, 2 * n, Markers(n));
    var outDec := DecodeLayout(fDec.buffer, md, 2 * n, Markers(n)).value;
    LayoutsFromStages(input, kernel, md, inDec, fDec, outDec);
  }

  /** The layout decodes when all three stages are defined: the first
      stage whose tag is undefined stops them, with its message and
      cursor. */
  lemma LayoutsFromStages(input: MemRef, kernel: MemRef, md: seq<int>, inDec: Decoded, fDec: Decoded, outDec: Decoded)
    requires 2 <= |input.sizes| <= MaxRank && |kernel.sizes| == |input.sizes| && 3 * |input.sizes| <= |md|
    requires 0 <= md[1] < |input.sizes| && 0 <= md[|input.sizes|] < |input.sizes|
    requires DecodeInput(input, md) == Ok((inDec, input.sizes[md[1]]))
    requires DecodeFilter(kernel, md, inDec.buffer) == Ok((fDec, kernel.sizes[md[|input.sizes|]]))
    requires DecodeLayout(fDec.buffer, md, 2 * |input.sizes|, Markers(|input.sizes|)) == Ok(outDec)
    ensures var n := |input.sizes|;
            DecodeLayouts(input, kernel, md) == Ok(
              if inDec.format == UndefFormat then BadLayout(InvalidInputFormat, n)
              else if fDec.format == UndefFormat then BadLayout(InvalidFilterFormat, 2 * n)
              else if outDec.format == UndefFormat then BadLayout(InvalidOutputFormat, 3 * n)
              else GoodLayouts(inDec.format, fDec.format, outDec.format, input.sizes[md[1]], kernel.sizes[md[n]]))
  {
  }

  /** A well-formed parse: with well-formed metadata, enough padding and a
      nonzero filter input-channel count the parse is defined, succeeds
      exactly when the three spelled layouts are known formats and every
      element type is float, and then carries the spelled layouts. */
  lemma WellFormedParse(input: MemRef, kernel: MemRef, padding: seq<int>, output: MemRef, md: seq<int>)
    requires ConvOperands(input, kernel, output)
    requires WellFormedMetadata(|input.sizes|, md)
    requires 2 * (|input.sizes| - 2) <= |padding|
    requires kernel.sizes[md[|input.sizes|]] != 0
    ensures var r := ParseConvParams(input, kernel, padding, output, md);
            var l := SpelledLayouts(input, kernel, md);
            && r.Ok?
            && (r.value.Parsed? <==>
                  l.GoodLayouts? && input.elem == Float && kernel.elem == Float && output.elem == Float)
            && (r.value.Parsed? ==>
                  && r.value.params.inputFormat == l.inputFormat
                  && r.value.params.filterFormat == l.filterFormat
                  && r.value.params.outputFormat == l.outputFormat)
            && (l.BadLayout? ==> r == Ok(ParseFailed(l.msg, l.cursor)))
  {
    DecodeLayoutsSpelled(input, kernel, md);
  }

  /** `ral_conv` as written: an empty operand returns at once; otherwise
      the parse runs, a failed parse signals its own message and then
      "invalid conv params", and the convolution is computed in either
      case: the source has no return after signalling. */
  function RalConv(input: MemRef, kernel: MemRef, padding: seq<int>, output: MemRef,
                   md: seq<int>): (r: Defined<Outcome>)
    requires ConvOperands(input, kernel, output)
    ensures AnyEmpty(input, kernel, output) ==> r == Ok(NoOp)
    ensures !AnyEmpty(input, kernel, output) && r.Ok? ==> r.value.CallConv?
    ensures r.Ok? && r.value.CallConv? ==> (r.value.errors == [] <==> r.value.params.Some?)
    ensures r.Ok? && r.value.CallConv? && r.value.params.Some? ==>
              ParsedFrom(r.value.params.value, input, kernel, padding, output, md)
    ensures r.Ok? && r.value.CallConv? && r.value.params.None? ==>
              |r.value.errors| == 2 && r.value.errors[1] == InvalidConvParams &&
              r.value.errors[0] in {InvalidInputFormat, InvalidFilterFormat, InvalidOutputFormat,
                                    InvalidInputDtype, InvalidFilterDtype, InvalidOutputDtype}
    ensures !AnyEmpty(input, kernel, output) ==>
              var p := ParseConvParams(input, kernel, padding, output, md);
              && (r.Ok? <==> p.Ok?)
              && (p.Ok? && p.value.Parsed? ==> r.value == CallConv([], Some(p.value.params)))
              && (p.Ok? && p.value.ParseFailed? ==>
                    r.value == CallConv([p.value.msg, InvalidConvParams], None))
  {
    if AnyEmpty(input, kernel, output) then Ok(NoOp)
    else
      var parsed :- ParseConvParams(input, kernel, padding, output, md);
      match parsed
      case Parsed(params, _) =>
        Ok(CallConv([], Some(params)))
      case ParseFailed(msg, _) => Ok(CallConv([msg, InvalidConvParams], None))
  }

  /** `ral_conv` with the evidently intended return after a failed parse:
      the two failures are signalled and no convolution is computed. */
  function RalConvIntended(input: MemRef, kernel: MemRef, padding: seq<int>, output: MemRef,
                           md: seq<int>): (r: Defined<Outcome>)
    requires ConvOperands(input, kernel, output)
    ensures AnyEmpty(input, kernel, output) ==> r == Ok(NoOp)
    ensures r.Ok? && r.value.CallConv? ==>
              r.value.errors == [] && r.value.params.Some? &&
              ParsedFrom(r.value.params.value, input, kernel, padding, output, md)
    ensures r.Ok? && r.value.Error? ==>
              |r.value.signalled| == 2 && r.value.signalled[1] == InvalidConvParams
    ensures r.Ok? ==> r.value.NoOp? || r.value.Error? || r.value.CallConv?
    ensures !AnyEmpty(input, kernel, output) ==>
              var p := ParseConvParams(input, kernel, padding, output, md);
              && (r.Ok? <==> p.Ok?)
              && (p.Ok? && p.value.Parsed? ==> r.value == CallConv([], Some(p.value.params)))
              && (p.Ok? && p.value.ParseFailed? ==> r.value == Error([p.value.msg, InvalidConvParams]))
  {
    if AnyEmpty(input, kernel, output) then Ok(NoOp)
    else
      var parsed :- ParseConvParams(input, kernel, padding, output, md);
      match parsed
      case Parsed(params, _) =>
        Ok(CallConv([], Some(params)))
      case ParseFailed(msg, _) => Ok(Error([msg, InvalidConvParams]))
  }

  /** The two agree except after a failed parse, where the source goes on
      to compute a convolution from parameters that were never filled in. */
  lemma RalConvDiffersOnlyAfterFailedParse(input: MemRef, kernel: MemRef, padding: seq<int>, output: MemRef,
                                           md: seq<int>)
    requires ConvOperands(input, kernel, output)
    ensures RalConv(input, kernel, padding, output, md).Ok? <==>
            RalConvIntended(input, kernel, padding, output, md).Ok?
    ensures RalConv(input, kernel, padding, output, md) != RalConvIntended(input, kernel, padding, output, md) <==>
              && !AnyEmpty(input, kernel, output)
              && ParseConvParams(input, kernel, padding, output, md).Ok?
              && ParseConvParams(input, kernel, padding, output, md).value.ParseFailed?
    ensures RalConvIntended(input, kernel, padding, output, md).Ok? &&
            RalConvIntended(input, kernel, padding, output, md).value.Error? ==>
              RalConv(input, kernel, padding, output, md) ==
              Ok(CallConv(RalConvIntended(input, kernel, padding, output, md).value.signalled, None))
  {
  }

  /** The metadata of the NHWC example below. */
  const NhwcMetadata: seq<int> := [0, 3, 1, 2, 2, 3, 0, 1, 0, 3, 1, 2, 1, 1, 1, 1]

  /** Four entries listing 0..3 in any order form a permutation. */
  lemma PermutationOfFour(md: seq<int>, c: nat, a: nat, b: nat, d: nat, e: nat)
    requires c + 4 <= |md|
    requires [md[c], md[c + 1], md[c + 2], md[c + 3]] == [a, b, d, e]
    requires a < 4 && b < 4 && d < 4 && e < 4
    requires a != b && a != d && a != e && b != d && b != e && d != e
    ensures IsPermutation(md, c, 4)
  {
    forall p | 0 <= p < 4
      ensures Named(md, c, 4, p)
    {
      if md[c] == p { assert md[c] == p; }
      else if md[c + 1] == p { assert md[c + 1] == p; }
      else if md[c + 2] == p { assert md[c + 2] == p; }
      else { assert md[c + 3] == p; }
    }
  }

  lemma NhwcMetadataWellFormed()
    ensures WellFormedMetadata(4, NhwcMetadata)
  {
    NhwcInputPermutation();
    NhwcFilterPermutation();
    NhwcOutputPermutation();
  }

  lemma NhwcInputPermutation()
    ensures IsPermutation(NhwcMetadata, 0, 4)
  {
    assert NhwcMetadata[0..4] == [0, 3, 1, 2];
    NhwcPermutationAt(0, 0, 3, 1, 2);
  }

  lemma NhwcFilterPermutation()
    ensures IsPermutation(NhwcMetadata, 4, 4)
  {
    assert NhwcMetadata[4..8] == [2, 3, 0, 1];
    NhwcPermutationAt(4, 2, 3, 0, 1);
  }

  lemma NhwcOutputPermutation()
    ensures IsPermutation(NhwcMetadata, 8, 4)
  {
    assert NhwcMetadata[8..12] == [0, 3, 1, 2];
    NhwcPermutationAt(8, 0, 3, 1, 2);
  }

  /** Where the channel axis sits in the input and filter layouts. */
  lemma NhwcChannelEntries()
    ensures NhwcMetadata[1] == 3 && NhwcMetadata[4] == 2
  {
  }

  lemma NhwcPermutationAt(c: nat, a: nat, b: nat, d: nat, e: nat)
    requires c + 4 <= |NhwcMetadata|
    requires NhwcMetadata[c..c + 4] == [a, b, d, e]
    requires a < 4 && b < 4 && d < 4 && e < 4
    requires a != b && a != d && a != e && b != d && b != e && d != e
    ensures IsPermutation(NhwcMetadata, c, 4)
  {
    var md := NhwcMetadata;
    assert [md[c], md[c + 1], md[c + 2], md[c + 3]] == md[c..c + 4];
    PermutationOfFour(md, c, a, b, d, e);
  }

  lemma NhwcLayoutNames()
    ensures LayoutName(NhwcMetadata, 0, Markers(4)) == "acdb"
    ensures LayoutName(NhwcMetadata, 4, FilterMarkers(4)) == "cdba"
    ensures LayoutName(NhwcMetadata, 8, Markers(4)) == "acdb"
  {
    NhwcInputName();
    NhwcFilterName();
    NhwcOutputName();
  }

  lemma NhwcInputName()
    ensures LayoutName(NhwcMetadata, 0, Markers(4)) == "acdb"
  {
    var md := NhwcMetadata;
    assert IndexOf(md, 0, 4, 0) == 0 && IndexOf(md, 0, 4, 1) == 2;
    assert IndexOf(md, 0, 4, 2) == 3 && IndexOf(md, 0, 4, 3) == 1;
  }

  lemma NhwcFilterName()
    ensures LayoutName(NhwcMetadata, 4, FilterMarkers(4)) == "cdba"
  {
    var md := NhwcMetadata;
    assert IndexOf(md, 4, 8, 0) == 6 && IndexOf(md, 4, 8, 1) == 7;
    assert IndexOf(md, 4, 8, 2) == 4 && IndexOf(md, 4, 8, 3) == 5;
  }

  lemma NhwcOutputName()
    ensures LayoutName(NhwcMetadata, 8, Markers(4)) == "acdb"
  {
    var md := NhwcMetadata;
    assert IndexOf(md, 8, 12, 0) == 8 && IndexOf(md, 8, 12, 1) == 10;
    assert IndexOf(md, 8, 12, 2) == 11 && IndexOf(md, 8, 12, 3) == 9;
  }

  lemma NonEmptyExample()
    ensures !AnyEmpty(MemRef(Float, [1, 5, 5, 8], [200, 40, 8, 1]),
                      MemRef(Float, [3, 3, 4, 16], [192, 64, 16, 1]),
                      MemRef(Float, [1, 5, 5, 16], [400, 80, 16, 1]))
  {
    var s1: seq<int> := [1, 5, 5, 8];
    var s2: seq<int> := [3, 3, 4, 16];
    var s3: seq<int> := [1, 5, 5, 16];
    assert forall i :: 0 <= i < 4 ==> s1[i] != 0 && s2[i] != 0 && s3[i] != 0;
  }

  /** An NHWC convolution with an HWIO filter, 8 input channels and a
      filter of 4 input channels: layouts acdb, cdba and acdb, and 2
      groups. */
  lemma NhwcExample()
    ensures var input := MemRef(Float, [1, 5, 5, 8], [200, 40, 8, 1]);
            var kernel := MemRef(Float, [3, 3, 4, 16], [192, 64, 16, 1]);
            var output := MemRef(Float, [1, 5, 5, 16], [400, 80, 16, 1]);
            var r := RalConv(input, kernel, [1, 1, 1, 1], output, NhwcMetadata);
            && r.Ok? && r.value.CallConv? && r.value.params.Some?
            && r.value.params.value.inputFormat == Acdb
            && r.value.params.value.filterFormat == Cdba
            && r.value.params.value.outputFormat == Acdb
            && r.value.params.value.groups == 2
  {
    NhwcParse();
    NonEmptyExample();
  }

  /** The layouts the NHWC metadata spells, with 8 and 4 input channels. */
  lemma NhwcSpelled()
    ensures SpelledLayouts(MemRef(Float, [1, 5, 5, 8], [200, 40, 8, 1]),
                           MemRef(Float, [3, 3, 4, 16], [192, 64, 16, 1]), NhwcMetadata) ==
            GoodLayouts(Acdb, Cdba, Acdb, 8, 4)
  {
    NhwcLayoutNames();
    assert NhwcMetadata[1] == 3 && NhwcMetadata[4] == 2;
  }

  /** The parse of the NHWC example on its own. */
  lemma NhwcParse()
    ensures var input := MemRef(Float, [1, 5, 5, 8], [200, 40, 8, 1]);
            var kernel := MemRef(Float, [3, 3, 4, 16], [192, 64, 16, 1]);
            var output := MemRef(Float, [1, 5, 5, 16], [400, 80, 16, 1]);
            var r := ParseConvParams(input, kernel, [1, 1, 1, 1], output, NhwcMetadata);
            && r.Ok? && r.value.Parsed?
            && r.value.params.inputFormat == Acdb
            && r.value.params.filterFormat == Cdba
            && r.value.params.outputFormat == Acdb
            && r.value.params.groups == 2
  {
    var input := MemRef(Float, [1, 5, 5, 8], [200, 40, 8, 1]);
    var kernel := MemRef(Float, [3, 3, 4, 16], [192, 64, 16, 1]);
    var output := MemRef(Float, [1, 5, 5, 16], [400, 80, 16, 1]);
    NhwcMetadataWellFormed();
    var md := NhwcMetadata;
    NhwcSpelled();
    NhwcChannelEntries();
    WellFormedParse(input, kernel, [1, 1, 1, 1], output, md);
    var r := ParseConvParams(input, kernel, [1, 1, 1, 1], output, md);
    assert r.Ok? && r.value.Parsed?;
    assert r.value.params.groups == TruncDiv(8, 4) == 2;
  }

  /** Input-layout metadata that swaps the first two axes ("bacd"), which
      `str2format` does not know. */
  const SwappedMetadata: seq<int> := [1, 0, 2, 3]

  lemma SwappedLayoutUnknown()
    ensures IsPermutation(SwappedMetadata, 0, 4)
    ensures LayoutName(SwappedMetadata, 0, Markers(4)) == "bacd"
    ensures Str2Format("bacd") == UndefFormat
  {
    var md := SwappedMetadata;
    PermutationOfFour(md, 0, 1, 0, 2, 3);
    assert IndexOf(md, 0, 4, 0) == 1 && IndexOf(md, 0, 4, 1) == 0;
    assert IndexOf(md, 0, 4, 2) == 2 && IndexOf(md, 0, 4, 3) == 3;
  }

  /** Whatever the operands, the swapped input layout stops the parse. */
  lemma SwappedParseFails(input: MemRef, kernel: MemRef, padding: seq<int>, output: MemRef)
    requires ConvOperands(input, kernel, output) && |input.sizes| == 4
    requires 4 <= |padding|
    ensures ParseConvParams(input, kernel, padding, output, SwappedMetadata) ==
            Ok(ParseFailed(InvalidInputFormat, 4))
  {
    var md := SwappedMetadata;
    SwappedLayoutUnknown();
    DecodeSpellsLayoutName(FreshBuffer(4), md, 0, Markers(4));
    assert md[1] == 0;
    assert DecodeLayouts(input, kernel, md) == Ok(BadLayout(InvalidInputFormat, 4));
  }

  /** The missing return after a failed parse: with an unknown input layout
      the source signals both failures and still computes a convolution,
      where the corrected entry point stops after signalling. */
  lemma ConvComputesAfterParseFailure()
    ensures var input := MemRef(Float, [1, 5, 5, 8], [200, 40, 8, 1]);
            var kernel := MemRef(Float, [3, 3, 4, 16], [192, 64, 16, 1]);
            var output := MemRef(Float, [1, 5, 5, 16], [400, 80, 16, 1]);
            && RalConv(input, kernel, [1, 1, 1, 1], output, SwappedMetadata) ==
               Ok(CallConv([InvalidInputFormat, InvalidConvParams], None))
            && RalConvIntended(input, kernel, [1, 1, 1, 1], output, SwappedMetadata) ==
               Ok(Error([InvalidInputFormat, InvalidConvParams]))
  {
    var input := MemRef(Float, [1, 5, 5, 8], [200, 40, 8, 1]);
    var kernel := MemRef(Float, [3, 3, 4, 16], [192, 64, 16, 1]);
    var output := MemRef(Float, [1, 5, 5, 16], [400, 80, 16, 1]);
    SwappedParseFails(input, kernel, [1, 1, 1, 1], output);
    NonEmptyExample();
  }
}

=== FILE: dispatch.dfy ===
/** What a CPU math-kernel entry point does in the end: nothing, report
    errors through the execution context, or call one vendor routine. The
    vendor routines are not modelled; a call is recorded with the arguments
    the front end derives for it. */
module Dispatch {
  import opened Common
  import opened Layout

  /** A oneDNN tensor descriptor: logical dims, element type and layout. */
  datatype TensorDesc = TensorDesc(dims: seq<int>, dtype: DataType, format: FormatTag)

  /** The decoded convolution parameters (`ConvParams`). The destination
      dims the source asks oneDNN for (`get_public_format_dims`) are not
      part of this model; `dst` carries the output memref's sizes. */
  datatype ConvParams = ConvParams(
    inputFormat: FormatTag,
    filterFormat: FormatTag,
    outputFormat: FormatTag,
    src: TensorDesc,
    weight: TensorDesc,
    dst: TensorDesc,
    strides: seq<int>,
    dilates: seq<int>,
    paddingL: seq<int>,
    paddingR: seq<int>,
    groups: int)

  /** Arguments of one row-major single-precision GEMM call, as passed to
      `cblas_sgemm` and `dnnl::sgemm`: transpose flags, m, n, k, the scale
      alpha of the product, the scale beta of the prior content of C (so
      beta 0 overwrites C), and the leading dimensions of A, B and C. */
  datatype GemmArgs = GemmArgs(
    transA: bool, transB: bool,
    m: int, n: int, k: int,
    alpha: int, beta: int,
    lda: int, ldb: int, ldc: int)

  /** Arguments of `cblas_sgemm_batch_strided`: the GEMM arguments plus the
      distance between consecutive matrices of A, B and C and the number
      of matrices. */
  datatype BatchStridedArgs = BatchStridedArgs(
    gemm: GemmArgs,
    strideA: int, strideB: int, strideC: int,
    batch: int)

  /** Calls into MKL. */
  datatype MklCall =
    | CblasSgemm(args: GemmArgs)
    | CblasSgemmBatchStrided(batchArgs: BatchStridedArgs)

  /** Calls into oneDNN. */
  datatype OneDnnCall =
    | DnnlSgemm(args: GemmArgs)
    | MatmulForward(src: TensorDesc, weight: TensorDesc, dst: TensorDesc)

  /** The failures an entry point reports through `signalError`. */
  datatype Failure =
    | InvalidInputFormat | InvalidFilterFormat | InvalidOutputFormat
    | InvalidInputDtype | InvalidFilterDtype | InvalidOutputDtype
    | InvalidConvParams
    | GemmContractionMismatch | GemmAutotuneUnsupported
    | BatchGemmInputError | BatchSizeMismatch | BatchGemmParamsMismatch
    | BatchGemmAutotuneUnsupported

  /** The message text passed to `signalError` for each failure. */
  function Message(f: Failure): string {
    match f
    case InvalidInputFormat => "invalid input format for conv op"
    case InvalidFilterFormat => "invalid filter format for conv op"
    case InvalidOutputFormat => "invalid output format for conv op"
    case InvalidInputDtype => "invalid input dtype for conv op"
    case InvalidFilterDtype => "invalid filter dtype for conv op"
    case InvalidOutputDtype => "invalid output dtype for conv op"
    case InvalidConvParams => "invalid conv params"
    case GemmContractionMismatch => "mismatch contraction dim for gemm"
    case GemmAutotuneUnsupported => "auto tuning mode for cpu gemm is not supported yet."
    case BatchGemmInputError => "ral_batch_gemm input error"
    case BatchSizeMismatch => "mismatch batch size"
    case BatchGemmParamsMismatch => "mismatch batch gemm params"
    case BatchGemmAutotuneUnsupported => "auto tuning mode for cpu batch gemm is not supported yet."
  }

  /** The outcome of one entry-point call. `Error` and `CallConv` list the
      failures signalled, in order. In `CallConv`, `params` is `None` when
      the parse failed: the compute call then receives whatever the failed
      parse left in a default-constructed `ConvParams`. */
  datatype Outcome =
    | NoOp
    | Error(signalled: seq<Failure>)
    | CallMKL(mkl: MklCall)
    | CallOneDNN(dnn: OneDnnCall)
    | CallConv(errors: seq<Failure>, params: Option<ConvParams>)
}

=== FILE: gemm.dfy ===
/** The plain GEMM entry point `ral_gemm` (rank-2 operands, C = op(A) *
    op(B)) and the arguments its two backends derive. The kernel-mode cache
    and the environment string are parameters; the mode is looked up only
    once the operands have passed the checks, so the call that first gets
    that far is the one that fills the cache. */
module Gemm {
  import opened Common
  import opened KernelMode
  import opened Dispatch

  /** Rows and columns of op(t), the matrix formed by the last two axes of
      `t`, transposed when `tp` is set. */
  function OpShape(t: MemRef, tp: bool): (shape: (int, int))
    requires |t.sizes| >= 2
    ensures var n := |t.sizes|;
            multiset{shape.0, shape.1} == multiset{t.sizes[n - 2], t.sizes[n - 1]}
  {
    var n := |t.sizes|;
    if tp then (t.sizes[n - 1], t.sizes[n - 2]) else (t.sizes[n - 2], t.sizes[n - 1])
  }

  /** Transposing swaps the two dimensions and keeps the element count. */
  lemma OpShapeCovers(t: MemRef, tp: bool)
    requires |t.sizes| >= 2
    ensures OpShape(t, tp) == (OpShape(t, !tp).1, OpShape(t, !tp).0)
    ensures var n := |t.sizes|;
            OpShape(t, tp).0 * OpShape(t, tp).1 == t.sizes[n - 2] * t.sizes[n - 1]
  {
  }

  /** The operands of a plain GEMM are matrices. */
  predicate Matrices(a: MemRef, b: MemRef, c: MemRef) {
    a.HasRank(2) && b.HasRank(2) && c.HasRank(2)
  }

  /** The arguments `mkl_ral_gemm` and `onednn_ral_gemm` both derive: m and
      k from A, n from B, alpha 1 and beta 0 (C is overwritten with the
      product), and the row strides of A, B and C as leading dimensions. */
  function GemmArgsFor(a: MemRef, b: MemRef, c: MemRef, tpA: bool, tpB: bool): (args: GemmArgs)
    requires Matrices(a, b, c)
    ensures args.transA == tpA && args.transB == tpB
    ensures args.m * args.k == Elements(a)
    ensures args.n == OpShape(b, tpB).1
    ensures OpShape(a, tpA) == (args.m, args.k)
    ensures args.alpha == 1 && args.beta == 0
    ensures args.lda == a.strides[0] && args.ldb == b.strides[0] && args.ldc == c.strides[0]
  {
    ProductSplitLastTwo(a.sizes);
    var (m, k) := OpShape(a, tpA);
    var n := OpShape(b, tpB).1;
    GemmArgs(tpA, tpB, m, n, k, 1, 0, a.strides[0], b.strides[0], c.strides[0])
  }

  /** `mkl_ral_gemm`: one `cblas_sgemm` call. */
  function MklGemm(a: MemRef, b: MemRef, c: MemRef, tpA: bool, tpB: bool): (call: MklCall)
    requires Matrices(a, b, c)
    ensures call.CblasSgemm? && call.args.m * call.args.k == Elements(a)
    ensures call.args.transA == tpA && call.args.transB == tpB
    ensures (call.args.m, call.args.k) == OpShape(a, tpA) && call.args.n == OpShape(b, tpB).1
    ensures call.args.alpha == 1 && call.args.beta == 0
    ensures call.args.lda == a.strides[0] && call.args.ldb == b.strides[0] && call.args.ldc == c.strides[0]
  {
    CblasSgemm(GemmArgsFor(a, b, c, tpA, tpB))
  }

  /** `onednn_ral_gemm`: one `dnnl::sgemm` call. */
  function OneDnnGemm(a: MemRef, b: MemRef, c: MemRef, tpA: bool, tpB: bool): (call: OneDnnCall)
    requires Matrices(a, b, c)
    ensures call.DnnlSgemm? && call.args.m * call.args.k == Elements(a)
    ensures call.args.transA == tpA && call.args.transB == tpB
    ensures (call.args.m, call.args.k) == OpShape(a, tpA) && call.args.n == OpShape(b, tpB).1
    ensures call.args.alpha == 1 && call.args.beta == 0
    ensures call.args.lda == a.strides[0] && call.args.ldb == b.strides[0] && call.args.ldc == c.strides[0]
  {
    DnnlSgemm(GemmArgsFor(a, b, c, tpA, tpB))
  }

  /** Both backends are handed the same GEMM. */
  lemma BackendsAgree(a: MemRef, b: MemRef, c: MemRef, tpA: bool, tpB: bool)
    requires Matrices(a, b, c)
    ensures MklGemm(a, b, c, tpA, tpB).args == OneDnnGemm(a, b, c, tpA, tpB).args
  {
  }

  /** op(A) is m x k and op(B) is k' x n: the contraction dims agree. */
  predicate ContractionMatches(a: MemRef, b: MemRef, tpA: bool, tpB: bool)
    requires |a.sizes| >= 2 && |b.sizes| >= 2
  {
    OpShape(a, tpA).1 == OpShape(b, tpB).0
  }

  /** `ral_gemm` given the mode cache before the call and what `getenv`
      would return; yields the outcome and the cache after the call. An
      empty operand returns silently; then a contraction mismatch is
      signalled; then the mode picks the backend, autotuning being
      rejected. The shape of C is never checked. */
  function RalGemm(cache: Option<Mode>, env: string, a: MemRef, b: MemRef, c: MemRef,
                   tpA: bool, tpB: bool): (r: (Outcome, Option<Mode>))
    requires Matrices(a, b, c)
    ensures r.0 == NoOp <==> AnyEmpty(a, b, c)
    ensures r.0 == Error([GemmContractionMismatch]) <==>
              !AnyEmpty(a, b, c) && !ContractionMatches(a, b, tpA, tpB)
    ensures r.0 == Error([GemmAutotuneUnsupported]) <==>
              !AnyEmpty(a, b, c) && ContractionMatches(a, b, tpA, tpB) && GetMode(cache, env).0 == PreferTuning
    ensures r.0.CallMKL? <==>
              !AnyEmpty(a, b, c) && ContractionMatches(a, b, tpA, tpB) && GetMode(cache, env).0 == PreferMKL
    ensures r.0.CallOneDNN? <==>
              !AnyEmpty(a, b, c) && ContractionMatches(a, b, tpA, tpB) && GetMode(cache, env).0 == PreferOneDNN
    ensures r.0.CallMKL? ==> r.0.mkl == CblasSgemm(GemmArgsFor(a, b, c, tpA, tpB))
    ensures r.0.CallOneDNN? ==> r.0.dnn == DnnlSgemm(GemmArgsFor(a, b, c, tpA, tpB))
    ensures r.0.NoOp? || r.0.Error? || r.0.CallMKL? || r.0.CallOneDNN?
    ensures AnyEmpty(a, b, c) || !ContractionMatches(a, b, tpA, tpB) ==> r.1 == cache
    ensures !AnyEmpty(a, b, c) && ContractionMatches(a, b, tpA, tpB) ==> r.1.Some?
    ensures r.1 == if AnyEmpty(a, b, c) || !ContractionMatches(a, b, tpA, tpB) then cache
                   else GetMode(cache, env).1
  {
    if AnyEmpty(a, b, c) then (NoOp, cache)
    else
      var (m, k) := OpShape(a, tpA);
      if k != OpShape(b, tpB).0 then (Error([GemmContractionMismatch]), cache)
      else
        var (mode, cache') := GetMode(cache, env);
        match mode
        case PreferOneDNN => (CallOneDNN(OneDnnGemm(a, b, c, tpA, tpB)), cache')
        case PreferMKL => (CallMKL(MklGemm(a, b, c, tpA, tpB)), cache')
        case PreferTuning => (Error([GemmAutotuneUnsupported]), cache')
  }

  /** A dispatched GEMM, on either backend, multiplies an m x k by a k x n
      matrix: the call's dimensions account for every element of A and B. */
  lemma DispatchedGemmCoversOperands(cache: Option<Mode>, env: string, a: MemRef, b: MemRef, c: MemRef,
                                     tpA: bool, tpB: bool)
    requires Matrices(a, b, c)
    requires RalGemm(cache, env, a, b, c, tpA, tpB).0.CallMKL? || RalGemm(cache, env, a, b, c, tpA, tpB).0.CallOneDNN?
    ensures var out := RalGemm(cache, env, a, b, c, tpA, tpB).0;
            var args := if out.CallMKL? then out.mkl.args else out.dnn.args;
            args.m * args.k == Elements(a) && args.k * args.n == Elements(b)
  {
    var args := GemmArgsFor(a, b, c, tpA, tpB);
    ProductSplitLastTwo(b.sizes);
    OpShapeCovers(b, tpB);
    assert Product(b.sizes[..0]) == 1;
  }

  /** Only C's emptiness and row stride matter: two output operands with
      the same strides, neither empty, give the same outcome whatever their
      sizes. */
  lemma RalGemmIgnoresOutputShape(cache: Option<Mode>, env: string, a: MemRef, b: MemRef, c: MemRef, c': MemRef,
                                  tpA: bool, tpB: bool)
    requires Matrices(a, b, c) && c'.HasRank(2)
    requires !IsEmptyMemref(c) && !IsEmptyMemref(c') && c.strides == c'.strides
    ensures RalGemm(cache, env, a, b, c, tpA, tpB) == RalGemm(cache, env, a, b, c', tpA, tpB)
  {
  }

  /** The first call to pass the checks fills the cache from the
      environment. */
  lemma RalGemmFillsCache(env: string, a: MemRef, b: MemRef, c: MemRef, tpA: bool, tpB: bool)
    requires Matrices(a, b, c) && !AnyEmpty(a, b, c) && ContractionMatches(a, b, tpA, tpB)
    ensures RalGemm(None, env, a, b, c, tpA, tpB).1 == Some(ParseMode(env))
  {
  }

  /** Once filled, the cache decides every later call whatever the
      environment then says. */
  lemma RalGemmUsesCache(m: Mode, env: string, env': string, a: MemRef, b: MemRef, c: MemRef, tpA: bool, tpB: bool)
    requires Matrices(a, b, c)
    ensures RalGemm(Some(m), env, a, b, c, tpA, tpB) == RalGemm(Some(m), env', a, b, c, tpA, tpB)
  {
  }

  /** Autotuning is rejected for GEMM, in any spelling of its name. */
  lemma RalGemmRejectsAutotune(a: MemRef, b: MemRef, c: MemRef)
    requires Matrices(a, b, c) && !AnyEmpty(a, b, c) && ContractionMatches(a, b, false, false)
    ensures RalGemm(None, "AUTOTUNE", a, b, c, false, false) ==
            (Error([GemmAutotuneUnsupported]), Some(PreferTuning))
  {
    assert SameIgnoringCase("AUTOTUNE", "autotune");
    assert ParseMode("AUTOTUNE") == PreferTuning;
  }

  /** A 2 x 3 by 4 x 5 product is rejected; a 2 x 3 by 3 x 5 product in MKL
      mode becomes sgemm(m=2, n=5, k=3) with alpha 1, beta 0. */
  lemma RalGemmExamples()
    ensures var a := MemRef(Float, [2, 3], [3, 1]);
            var b := MemRef(Float, [4, 5], [5, 1]);
            var c := MemRef(Float, [2, 5], [5, 1]);
            RalGemm(Some(PreferMKL), "", a, b, c, false, false).0 == Error([GemmContractionMismatch])
    ensures var a := MemRef(Float, [2, 3], [3, 1]);
            var b := MemRef(Float, [3, 5], [5, 1]);
            var c := MemRef(Float, [2, 5], [5, 1]);
            RalGemm(Some(PreferMKL), "", a, b, c, false, false).0 ==
              CallMKL(CblasSgemm(GemmArgs(false, false, 2, 5, 3, 1, 0, 3, 5, 5)))
  {
    GemmMismatchExample();
    GemmMklExample();
  }

  lemma GemmMismatchExample()
    ensures var a := MemRef(Float, [2, 3], [3, 1]);
            var b := MemRef(Float, [4, 5], [5, 1]);
            var c := MemRef(Float, [2, 5], [5, 1]);
            RalGemm(Some(PreferMKL), "", a, b, c, false, false).0 == Error([GemmContractionMismatch])
  {
  }

  lemma GemmMklExample()
    ensures var a := MemRef(Float, [2, 3], [3, 1]);
            var b := MemRef(Float, [3, 5], [5, 1]);
            var c := MemRef(Float, [2, 5], [5, 1]);
            RalGemm(Some(PreferMKL), "", a, b, c, false, false).0 ==
              CallMKL(CblasSgemm(GemmArgs(false, false, 2, 5, 3, 1, 0, 3, 5, 5)))
  {
  }
}

=== FILE: kernel_mode.dfy ===
/** The process-wide CPU math-kernel mode: which vendor library backs CPU
    GEMM. The mode is read from the DISC_CPU_MATH_KERNEL_MODE environment
    string on first use and cached for the rest of the process. The string is
    a parameter here; a call that finds the cache filled ignores it. */
module KernelMode {
  import opened Common

  /** `DiscCpuMathKernelMode`. */
  datatype Mode = PreferMKL | PreferOneDNN | PreferTuning

  /** `std::tolower` in the "C" locale, applied to one byte: only the
      letters A-Z change. */
  function LowerChar(c: char): char {
    if 'A' <= c <= 'Z' then ((c as int) + 32) as char else c
  }

  /** The `std::transform` that lower-cases the environment string. */
  function ToLower(s: string): (r: string)
    ensures |r| == |s|
    ensures forall i :: 0 <= i < |s| ==> r[i] == LowerChar(s[i])
  {
    if |s| == 0 then [] else [LowerChar(s[0])] + ToLower(s[1..])
  }

  /** `s` and `t` spell the same word once case is ignored. */
  ghost predicate SameIgnoringCase(s: string, t: string) {
    |s| == |t| && forall i :: 0 <= i < |s| ==> LowerChar(s[i]) == LowerChar(t[i])
  }

  /** Lower-casing maps `s` onto the lower-case word `w` exactly when `s`
      spells `w` in any mixture of cases. */
  lemma ToLowerIsWord(s: string, w: string)
    requires forall i :: 0 <= i < |w| ==> LowerChar(w[i]) == w[i]
    ensures ToLower(s) == w <==> SameIgnoringCase(s, w)
  {
    if SameIgnoringCase(s, w) {
      assert forall i :: 0 <= i < |s| ==> ToLower(s)[i] == w[i];
    }
  }

  /** `initDiscCpuMathKernelMode` once `getenv` has been read (an unset
      variable reads as the empty string): "onednn" and "autotune" select
      their modes in any case, and every other string selects MKL. */
  function ParseMode(env: string): (m: Mode)
    ensures m == PreferOneDNN <==> SameIgnoringCase(env, "onednn")
    ensures m == PreferTuning <==> SameIgnoringCase(env, "autotune")
    ensures m == PreferMKL <==>
              !SameIgnoringCase(env, "onednn") && !SameIgnoringCase(env, "autotune")
  {
    ToLowerIsWord(env, "onednn");
    ToLowerIsWord(env, "autotune");
    var s := ToLower(env);
    if s == "mkl" then PreferMKL
    else if s == "onednn" then PreferOneDNN
    else if s == "autotune" then PreferTuning
    else PreferMKL
  }

  /** Strings that differ only in case select the same mode. */
  lemma ParseModeIgnoresCase(s: string, t: string)
    requires SameIgnoringCase(s, t)
    ensures ParseMode(s) == ParseMode(t)
  {
    assert SameIgnoringCase(s, "onednn") <==> SameIgnoringCase(t, "onednn");
    assert SameIgnoringCase(s, "autotune") <==> SameIgnoringCase(t, "autotune");
  }

  lemma ParseModeExamples()
    ensures ParseMode("OneDNN") == ParseMode("onednn") == PreferOneDNN
    ensures ParseMode("AutoTune") == PreferTuning
    ensures ParseMode("MKL") == PreferMKL
    ensures ParseMode("") == PreferMKL
    ensures ParseMode("mkldnn") == PreferMKL
  {
    OneDnnSpelling();
    AutotuneSpelling();
    MklSpellings();
  }

  lemma OneDnnSpelling()
    ensures ParseMode("OneDNN") == PreferOneDNN
  {
    assert "OneDNN"[0] == 'O';
    assert SameIgnoringCase("OneDNN", "onednn");
  }

  lemma AutotuneSpelling()
    ensures ParseMode("AutoTune") == PreferTuning
  {
    assert SameIgnoringCase("AutoTune", "autotune");
  }

  lemma MklSpellings()
    ensures ParseMode("MKL") == PreferMKL
    ensures ParseMode("mkldnn") == PreferMKL
  {
    assert !SameIgnoringCase("MKL", "onednn");
    assert "mkldnn"[0] == 'm' && "onednn"[0] == 'o' && LowerChar('m') != LowerChar('o');
    assert !SameIgnoringCase("mkldnn", "onednn") && !SameIgnoringCase("mkldnn", "autotune");
  }

  /** `GetDiscCpuMathKernelMode`: `cache` is the function-local static
      (`None` before first use) and `env` is what `getenv` would return at
      this call. Returns the mode and the cache after the call. */
  function GetMode(cache: Option<Mode>, env: string): (r: (Mode, Option<Mode>))
    ensures r.1 == Some(r.0)
    ensures cache.Some? ==> r.0 == cache.value
    ensures cache.None? ==> r.0 == ParseMode(env)
  {
    match cache
    case Some(m) => (m, cache)
    case None =>
      var m := ParseMode(env);
      (m, Some(m))
  }

  /** The modes returned by successive calls, starting from `cache`, while the
      environment reads `envs[0]`, `envs[1]`, ... at those calls. */
  function ModesOfCalls(cache: Option<Mode>, envs: seq<string>): (r: seq<Mode>)
    ensures |r| == |envs|
    decreases |envs|
  {
    if |envs| == 0 then []
    else
      var (m, cache') := GetMode(cache, envs[0]);
      [m] + ModesOfCalls(cache', envs[1..])
  }

  /** Every call returns the mode the first call resolved, however the
      environment changes in between. */
  lemma {:induction false} CallsAgreeWithFirst(cache: Option<Mode>, envs: seq<string>)
    requires |envs| > 0
    ensures forall i :: 0 <= i < |envs| ==>
              ModesOfCalls(cache, envs)[i] == GetMode(cache, envs[0]).0
    decreases |envs|
  {
    var (m, cache') := GetMode(cache, envs[0]);
    if |envs| > 1 {
      CallsAgreeWithFirst(cache', envs[1..]);
      assert GetMode(cache', envs[1]).0 == m;
    }
  }

  /** The process-wide lazily initialised mode, modelled sequentially. */
  class ModeRegistry {
    var cache: Option<Mode>

    constructor()
      ensures cache == None
    {
      cache := None;
    }

    method Get(env: string) returns (m: Mode)
      modifies this
      ensures old(cache).Some? ==> m == old(cache).value
      ensures old(cache).None? ==> m == ParseMode(env)
      ensures cache == Some(m)
    {
      var r := GetMode(cache, env);
      cache := r.1;
      m := r.0;
    }
  }

  /** Two calls on a fresh registry agree, and both see only the first
      environment string. */
  method TwoCallsAgree(first: string, second: string) returns (m1: Mode, m2: Mode)
    ensures m1 == m2 == ParseMode(first)
  {
    var registry := new ModeRegistry();
    m1 := registry.Get(first);
    m2 := registry.Get(second);
  }
}

=== FILE: layout.dfy ===
/** Decoding a tensor layout from the metadata of a convolution. Each decode
    scatters one marker character per logical axis into a shared character
    buffer, at the physical axis the metadata names, then reads the buffer
    as a NUL-terminated string and looks it up in a closed set of layout
    names (`format_tag`). */
module Layout {
  import opened Common

  /** The highest rank whose axis markers stay within 'a'..'z'. */
  const MaxRank: nat := 26

  const NUL: char := '\0'

  /** The `format_tag` values the decoder can produce. */
  datatype FormatTag = UndefFormat | Abcd | Acdb | Cdba | Abc | Acb

  /** The layout names `str2format` recognises. */
  const KnownFormats: set<string> := {"abcd", "acdb", "cdba", "abc", "acb"}

  /** The name of a defined layout tag. */
  function FormatName(t: FormatTag): (s: string)
    requires t != UndefFormat
    ensures s in KnownFormats
  {
    match t
    case Abcd => "abcd"
    case Acdb => "acdb"
    case Cdba => "cdba"
    case Abc => "abc"
    case Acb => "acb"
  }

  /** `str2format`: a defined tag for exactly the five known names, and the
      tag is the one carrying that name; `UndefFormat` for every other
      string. */
  function Str2Format(s: string): (t: FormatTag)
    ensures t != UndefFormat <==> s in KnownFormats
    ensures t != UndefFormat ==> FormatName(t) == s
    ensures |s| < 3 ==> t == UndefFormat
  {
    if s == "abcd" then Abcd
    else if s == "acdb" then Acdb
    else if s == "cdba" then Cdba
    else if s == "abc" then Abc
    else if s == "acb" then Acb
    else UndefFormat
  }

  /** Naming a tag and looking the name up gives the tag back. */
  lemma FormatNameRoundTrip(t: FormatTag)
    requires t != UndefFormat
    ensures Str2Format(FormatName(t)) == t
  {
  }

  /** The marker of logical axis `i`: 'a' + i. */
  function Marker(i: nat): char
    requires i < MaxRank
  {
    (('a' as int) + i) as char
  }

  /** Markers written by the input and output decodes: 'a', 'b', 'c', ... */
  function Markers(n: nat): (r: seq<char>)
    requires n <= MaxRank
    ensures |r| == n
    ensures forall i :: 0 <= i < n ==> r[i] == Marker(i)
    ensures NUL !in r
  {
    seq(n, i requires 0 <= i < n => Marker(i))
  }

  /** Markers written by the filter decode: 'b' for the first entry (the
      filter's input-channel axis), 'a' for the second (its output-channel
      axis), then 'a' + i for entry i >= 2. */
  function FilterMarkers(n: nat): (r: seq<char>)
    requires 2 <= n <= MaxRank
    ensures |r| == n && r[0] == 'b' && r[1] == 'a'
    ensures forall i :: 2 <= i < n ==> r[i] == Marker(i)
    ensures NUL !in r
  {
    ['b', 'a'] + Markers(n)[2..]
  }

  /** The metadata entries at positions `from..to` exist and are all
      positions of a buffer of length `len`. */
  ghost predicate InBuffer(md: seq<int>, from: nat, to: nat, len: nat) {
    && (from < to ==> to <= |md|)
    && forall q :: from <= q < to ==> 0 <= md[q] < len
  }

  /** The write made for metadata position `q` is the last one, among the
      positions before `to`, to its buffer slot. */
  ghost predicate LastWrite(md: seq<int>, q: nat, to: nat)
    requires q < to <= |md|
  {
    forall q' :: q < q' < to ==> md[q'] != md[q]
  }

  /** No metadata entry at positions `from..to` names buffer slot `p`. */
  ghost predicate Untouched(md: seq<int>, from: nat, to: nat, p: int)
    requires from <= to <= |md|
  {
    forall q :: from <= q < to ==> md[q] != p
  }

  /** What the scatter leaves in `written`: each marker whose write was the
      last to its slot, and the old content of every slot no entry names. */
  ghost predicate Placed(buffer: seq<char>, md: seq<int>, cursor: nat, marks: seq<char>, written: seq<char>)
    requires cursor + |marks| <= |md| && |written| == |buffer|
    requires InBuffer(md, cursor, cursor + |marks|, |buffer|)
  {
    && (forall q :: cursor <= q < cursor + |marks| && LastWrite(md, q, cursor + |marks|) ==>
                      written[md[q]] == marks[q - cursor])
    && (forall p :: 0 <= p < |buffer| && Untouched(md, cursor, cursor + |marks|, p) ==>
                      written[p] == buffer[p])
  }

  /** The loop `format_buffer[metadata[idx++]] = marks[i]`, starting at
      metadata position `cursor`: marker i goes to the buffer slot named by
      entry `cursor + i`, later writes overwriting earlier ones, and slots no
      entry names keep their old content. An entry outside the buffer, or
      one past the end of the metadata, is undefined behaviour. */
  function Scatter(buffer: seq<char>, md: seq<int>, cursor: nat, marks: seq<char>): (r: Defined<seq<char>>)
    requires cursor <= |md|
    ensures r.Ok? <==> InBuffer(md, cursor, cursor + |marks|, |buffer|)
    ensures r.Ok? ==> cursor + |marks| <= |md| && |r.value| == |buffer|
    ensures r.Ok? ==> Placed(buffer, md, cursor, marks, r.value)
    decreases |marks|
  {
    if |marks| == 0 then Ok(buffer)
    else if cursor >= |md| || !(0 <= md[cursor] < |buffer|) then
      OutsideBuffer(md, cursor, cursor + |marks|, |buffer|, cursor);
      Undefined
    else
      var r := Scatter(buffer[md[cursor] := marks[0]], md, cursor + 1, marks[1..]);
      InBufferStep(md, cursor, cursor + |marks|, |buffer|);
      if r.Ok? then ScatterStep(buffer, md, cursor, marks, r.value); r else r
  }

  /** Past an entry inside the buffer, the rest decides. */
  lemma InBufferStep(md: seq<int>, from: nat, to: nat, len: nat)
    requires from < to && from < |md| && 0 <= md[from] < len
    ensures InBuffer(md, from, to, len) <==> InBuffer(md, from + 1, to, len)
  {
    if InBuffer(md, from + 1, to, len) {
      forall q | from <= q < to
        ensures 0 <= md[q] < len
      {
        if q != from {
          assert from + 1 <= q < to;
        }
      }
    }
  }

  /** One entry outside the buffer is enough to leave it. */
  lemma OutsideBuffer(md: seq<int>, from: nat, to: nat, len: nat, q: nat)
    requires from <= q < to && !(q < |md| && 0 <= md[q] < len)
    ensures !InBuffer(md, from, to, len)
  {
  }

  /** One step of the scatter: what the rest of the loop leaves, after
      marker 0 went to slot `md[cursor]`, is what the whole loop leaves. */
  lemma ScatterStep(buffer: seq<char>, md: seq<int>, cursor: nat, marks: seq<char>, written: seq<char>)
    requires 0 < |marks| && cursor + |marks| <= |md| && 0 <= md[cursor] < |buffer|
    requires |written| == |buffer| && InBuffer(md, cursor, cursor + |marks|, |buffer|)
    requires Placed(buffer[md[cursor] := marks[0]], md, cursor + 1, marks[1..], written)
    ensures Placed(buffer, md, cursor, marks, written)
  {
    var end := cursor + |marks|;
    forall q | cursor <= q < end && LastWrite(md, q, end)
      ensures written[md[q]] == marks[q - cursor]
    {
      if q == cursor {
        assert Untouched(md, cursor + 1, end, md[cursor]);
      } else {
        assert LastWrite(md, q, end);
      }
    }
    forall p | 0 <= p < |buffer| && Untouched(md, cursor, end, p)
      ensures written[p] == buffer[p]
    {
      assert Untouched(md, cursor + 1, end, p);
    }
  }

  /** Reading the buffer as a C string (`format_buffer.data()` converted to
      `std::string`): the characters before the first NUL. A buffer with no
      NUL would be read past its end, which is undefined behaviour. */
  function CString(buffer: seq<char>): (r: Defined<string>)
    ensures r.Ok? <==> NUL in buffer
    ensures r.Ok? ==> |r.value| < |buffer| && r.value == buffer[..|r.value|]
    ensures r.Ok? ==> buffer[|r.value|] == NUL && NUL !in r.value
  {
    if |buffer| == 0 then Undefined
    else if buffer[0] == NUL then Ok([])
    else
      var rest :- CString(buffer[1..]);
      Ok([buffer[0]] + rest)
  }

  /** The buffer after a decode, and the tag its content names. */
  datatype Decoded = Decoded(buffer: seq<char>, format: FormatTag)

  /** One layout decode: scatter the markers, then look the resulting C
      string up with `str2format`. */
  function DecodeLayout(buffer: seq<char>, md: seq<int>, cursor: nat, marks: seq<char>): (r: Defined<Decoded>)
    requires cursor <= |md|
    ensures r.Ok? ==> |r.value.buffer| == |buffer| && cursor + |marks| <= |md|
    ensures !InBuffer(md, cursor, cursor + |marks|, |buffer|) ==> r.Undefined?
    ensures r.Ok? ==> NUL in r.value.buffer
    ensures r.Ok? ==> forall q :: cursor <= q < cursor + |marks| && LastWrite(md, q, cursor + |marks|) ==>
                                    r.value.buffer[md[q]] == marks[q - cursor]
    ensures r.Ok? ==> forall p :: 0 <= p < |buffer| && Untouched(md, cursor, cursor + |marks|, p) ==>
                                    r.value.buffer[p] == buffer[p]
    ensures r.Ok? && r.value.format != UndefFormat ==>
              var name := FormatName(r.value.format);
              && |name| < |buffer|
              && r.value.buffer[..|name|] == name
              && r.value.buffer[|name|] == NUL
  {
    var written :- Scatter(buffer, md, cursor, marks);
    var s :- CString(written);
    Ok(Decoded(written, Str2Format(s)))
  }

  /** A decode whose entries all lie in the buffer, and which leaves some
      NUL-holding slot untouched, is defined. */
  lemma DecodeLayoutDefined(buffer: seq<char>, md: seq<int>, cursor: nat, marks: seq<char>, p: nat)
    requires cursor + |marks| <= |md|
    requires InBuffer(md, cursor, cursor + |marks|, |buffer|)
    requires p < |buffer| && buffer[p] == NUL && Untouched(md, cursor, cursor + |marks|, p)
    ensures DecodeLayout(buffer, md, cursor, marks).Ok?
  {
    var written := Scatter(buffer, md, cursor, marks).value;
    assert written[p] == NUL;
  }

  /** The tag of a defined decode is `str2format` of the buffer read as a C
      string: `UndefFormat` exactly when that string is no known name. */
  lemma DecodeLayoutTag(buffer: seq<char>, md: seq<int>, cursor: nat, marks: seq<char>)
    requires cursor <= |md|
    ensures var r := DecodeLayout(buffer, md, cursor, marks);
            r.Ok? ==> && CString(r.value.buffer).Ok?
                      && r.value.format == Str2Format(CString(r.value.buffer).value)
                      && (r.value.format == UndefFormat <==> CString(r.value.buffer).value !in KnownFormats)
  {
  }

  /** `md[cursor..cursor+n]` lists every axis position 0..n-1 exactly once. */
  ghost predicate IsPermutation(md: seq<int>, cursor: nat, n: nat) {
    && cursor + n <= |md|
    && (forall q :: cursor <= q < cursor + n ==> 0 <= md[q] < n)
    && (forall q, q' :: cursor <= q < q' < cursor + n ==> md[q] != md[q'])
    && (forall p :: 0 <= p < n ==> Named(md, cursor, n, p))
  }

  /** Some entry of `md[cursor..cursor+n]` is `p`. */
  ghost predicate Named(md: seq<int>, cursor: nat, n: nat, p: int)
    requires cursor + n <= |md|
  {
    exists q :: cursor <= q < cursor + n && md[q] == p
  }

  /** Decoding a permutation into a buffer whose last slot is NUL: slot
      `md[cursor + i]` receives marker i, the last slot stays NUL, and the
      tag is the lookup of the n characters before it. */
  lemma DecodePermutation(buffer: seq<char>, md: seq<int>, cursor: nat, marks: seq<char>)
    requires |buffer| == |marks| + 1 && buffer[|marks|] == NUL
    requires IsPermutation(md, cursor, |marks|)
    requires NUL !in marks
    ensures DecodeLayout(buffer, md, cursor, marks).Ok?
    ensures var d := DecodeLayout(buffer, md, cursor, marks).value;
            && |d.buffer| == |marks| + 1
            && d.buffer[|marks|] == NUL
            && (forall q :: cursor <= q < cursor + |marks| ==> d.buffer[md[q]] == marks[q - cursor])
            && d.format == Str2Format(d.buffer[..|marks|])
  {
    var n := |marks|;
    var end := cursor + n;
    assert InBuffer(md, cursor, end, |buffer|);
    var written := Scatter(buffer, md, cursor, marks).value;
    forall q | cursor <= q < end
      ensures written[md[q]] == marks[q - cursor]
    {
      assert LastWrite(md, q, end);
    }
    assert Untouched(md, cursor, end, n);
    assert written[n] == NUL;
    forall p | 0 <= p < n
      ensures written[p] != NUL
    {
      assert Named(md, cursor, n, p);
      var q :| cursor <= q < end && md[q] == p;
      assert written[p] == marks[q - cursor];
    }
    var s := CString(written).value;
    assert |s| == n;
  }

  /** With a permutation, the decode overwrites every slot before the last,
      so what earlier decodes left in the shared buffer does not matter. */
  lemma DecodeIgnoresPriorBuffer(b1: seq<char>, b2: seq<char>, md: seq<int>, cursor: nat, marks: seq<char>)
    requires |b1| == |b2| == |marks| + 1 && b1[|marks|] == NUL && b2[|marks|] == NUL
    requires IsPermutation(md, cursor, |marks|)
    requires NUL !in marks
    ensures DecodeLayout(b1, md, cursor, marks) == DecodeLayout(b2, md, cursor, marks)
  {
    DecodePermutation(b1, md, cursor, marks);
    DecodePermutation(b2, md, cursor, marks);
    var d1 := DecodeLayout(b1, md, cursor, marks).value;
    var d2 := DecodeLayout(b2, md, cursor, marks).value;
    assert |d1.buffer| == |d2.buffer| == |marks| + 1;
    forall p | 0 <= p <= |marks|
      ensures d1.buffer[p] == d2.buffer[p]
    {
      if p < |marks| {
        assert Named(md, cursor, |marks|, p);
        var q :| cursor <= q < cursor + |marks| && md[q] == p;
        assert d1.buffer[md[q]] == d2.buffer[md[q]];
      }
    }
    assert d1.buffer == d2.buffer;
    assert d1.buffer[..|marks|] == d2.buffer[..|marks|];
  }

  /** A scatter reads only the metadata entries it consumes. */
  lemma {:induction false} ScatterReadsOnlyItsEntries(buffer: seq<char>, md: seq<int>, md': seq<int>, cursor: nat, marks: seq<char>)
    requires cursor + |marks| <= |md| && cursor + |marks| <= |md'|
    requires forall q :: cursor <= q < cursor + |marks| ==> md[q] == md'[q]
    ensures Scatter(buffer, md, cursor, marks) == Scatter(buffer, md', cursor, marks)
    decreases |marks|
  {
    if |marks| > 0 && 0 <= md[cursor] < |buffer| {
      ScatterReadsOnlyItsEntries(buffer[md[cursor] := marks[0]], md, md', cursor + 1, marks[1..]);
    }
  }

  /** So does a whole decode. */
  lemma DecodeReadsOnlyItsEntries(buffer: seq<char>, md: seq<int>, md': seq<int>, cursor: nat, marks: seq<char>)
    requires cursor + |marks| <= |md| && cursor + |marks| <= |md'|
    requires forall q :: cursor <= q < cursor + |marks| ==> md[q] == md'[q]
    ensures DecodeLayout(buffer, md, cursor, marks) == DecodeLayout(buffer, md', cursor, marks)
  {
    ScatterReadsOnlyItsEntries(buffer, md, md', cursor, marks);
  }

  /** The first position in `from..to` whose entry is `p`, or `to` if none. */
  function IndexOf(md: seq<int>, from: nat, to: nat, p: int): (q: nat)
    requires from <= to <= |md|
    ensures from <= q <= to
    ensures q < to ==> md[q] == p
    ensures forall k :: from <= k < q ==> md[k] != p
    decreases |md| - from
  {
    if from == to || md[from] == p then from else IndexOf(md, from + 1, to, p)
  }

  /** The layout name a metadata permutation spells, written directly:
      physical position p carries the marker of the logical axis that
      `md[cursor..cursor+n]` maps to p. */
  function LayoutName(md: seq<int>, cursor: nat, marks: seq<char>): (s: string)
    requires cursor + |marks| <= |md|
    ensures |s| == |marks|
  {
    var end := cursor + |marks|;
    seq(|marks|, p requires 0 <= p < |marks| =>
          var q := IndexOf(md, cursor, end, p);
          if q < end then marks[q - cursor] else NUL)
  }

  /** On a permutation the decode names exactly the layout `LayoutName`
      spells, whatever the buffer held before, as long as its last slot is
      NUL. */
  lemma DecodeSpellsLayoutName(buffer: seq<char>, md: seq<int>, cursor: nat, marks: seq<char>)
    requires |buffer| == |marks| + 1 && buffer[|marks|] == NUL
    requires IsPermutation(md, cursor, |marks|)
    requires NUL !in marks
    ensures DecodeLayout(buffer, md, cursor, marks).Ok?
    ensures DecodeLayout(buffer, md, cursor, marks).value.format == Str2Format(LayoutName(md, cursor, marks))
    ensures DecodeLayout(buffer, md, cursor, marks).value.buffer[|marks|] == NUL
  {
    DecodePermutation(buffer, md, cursor, marks);
    var d := DecodeLayout(buffer, md, cursor, marks).value;
    PlacedSpellsLayoutName(d.buffer, md, cursor, marks);
  }

  /** A buffer holding marker i at the slot entry i names, for a
      permutation, spells `LayoutName` in its first n slots. */
  lemma PlacedSpellsLayoutName(written: seq<char>, md: seq<int>, cursor: nat, marks: seq<char>)
    requires |written| == |marks| + 1
    requires IsPermutation(md, cursor, |marks|)
    requires forall q :: cursor <= q < cursor + |marks| ==> written[md[q]] == marks[q - cursor]
    ensures written[..|marks|] == LayoutName(md, cursor, marks)
  {
    var n := |marks|;
    var name := LayoutName(md, cursor, marks);
    forall p | 0 <= p < n
      ensures written[p] == name[p]
    {
      assert Named(md, cursor, n, p);
      var q :| cursor <= q < cursor + n && md[q] == p;
      var q0 := IndexOf(md, cursor, cursor + n, p);
      assert q0 == q;
    }
  }

  /** Off permutations the shared buffer does matter: entries [0, 2, 0, 1]
      never write slot 3, so after a "cdba" decode they read "cdba" again,
      while from a fresh buffer they read "cdb", which is no known layout. */
  lemma StaleBufferExample()
    ensures DecodeLayout(['c', 'd', 'b', 'a', NUL], [0, 2, 0, 1], 0, Markers(4)) ==
            Ok(Decoded(['c', 'd', 'b', 'a', NUL], Cdba))
    ensures DecodeLayout([NUL, NUL, NUL, NUL, NUL], [0, 2, 0, 1], 0, Markers(4)) ==
            Ok(Decoded(['c', 'd', 'b', NUL, NUL], UndefFormat))
  {
    StaleDecode();
    CleanDecode();
  }

  lemma StaleDecode()
    ensures DecodeLayout(['c', 'd', 'b', 'a', NUL], [0, 2, 0, 1], 0, Markers(4)) ==
            Ok(Decoded(['c', 'd', 'b', 'a', NUL], Cdba))
  {
    assert Markers(4) == "abcd";
    StaleScatter();
    StaleRead();
  }

  lemma CleanDecode()
    ensures DecodeLayout([NUL, NUL, NUL, NUL, NUL], [0, 2, 0, 1], 0, Markers(4)) ==
            Ok(Decoded(['c', 'd', 'b', NUL, NUL], UndefFormat))
  {
    assert Markers(4) == "abcd";
    CleanScatter();
    CleanRead();
  }

  lemma StaleScatter()
    ensures Scatter(['c', 'd', 'b', 'a', NUL], [0, 2, 0, 1], 0, "abcd") == Ok(['c', 'd', 'b', 'a', NUL])
  {
    var md := [0, 2, 0, 1];
    var stale := ['c', 'd', 'b', 'a', NUL];
    var early := ['a', 'd', 'b', 'a', NUL];
    assert early[0 := 'c'] == stale && early[2 := 'b'] == early && stale[0 := 'a'] == early;
    assert stale[1 := 'd'] == stale;
    assert "cd"[1..] == "d" && "bcd"[1..] == "cd" && "abcd"[1..] == "bcd";
    assert Scatter(stale, md, 3, "d") == Ok(stale);
    assert Scatter(early, md, 2, "cd") == Ok(stale);
    assert Scatter(early, md, 1, "bcd") == Ok(stale);
  }

  lemma StaleRead()
    ensures CString(['c', 'd', 'b', 'a', NUL]) == Ok("cdba")
  {
    var stale := ['c', 'd', 'b', 'a', NUL];
    assert CString([NUL]) == Ok([]);
    assert CString(['a', NUL]) == Ok(['a'] + []) && ['a'] + [] == "a";
    assert stale[3..] == ['a', NUL] && stale[3..][1..] == stale[4..] == [NUL];
    assert CString(stale[3..]) == Ok("a");
    assert stale[2..][1..] == stale[3..] && ['b'] + "a" == "ba";
    assert CString(stale[2..]) == Ok("ba");
    assert stale[1..][1..] == stale[2..] && ['d'] + "ba" == "dba";
    assert CString(stale[1..]) == Ok("dba");
    assert ['c'] + "dba" == "cdba";
  }

  lemma CleanScatter()
    ensures Scatter([NUL, NUL, NUL, NUL, NUL], [0, 2, 0, 1], 0, "abcd") == Ok(['c', 'd', 'b', NUL, NUL])
  {
    var md := [0, 2, 0, 1];
    var blank := [NUL, NUL, NUL, NUL, NUL];
    var b1 := ['a', NUL, NUL, NUL, NUL];
    var b2 := ['a', NUL, 'b', NUL, NUL];
    var b3 := ['c', NUL, 'b', NUL, NUL];
    var left := ['c', 'd', 'b', NUL, NUL];
    assert blank[0 := 'a'] == b1 && b1[2 := 'b'] == b2 && b2[0 := 'c'] == b3 && b3[1 := 'd'] == left;
    assert "cd"[1..] == "d" && "bcd"[1..] == "cd" && "abcd"[1..] == "bcd";
    assert Scatter(b3, md, 3, "d") == Ok(left);
    assert Scatter(b2, md, 2, "cd") == Ok(left);
    assert Scatter(b1, md, 1, "bcd") == Ok(left);
  }

  lemma CleanRead()
    ensures CString(['c', 'd', 'b', NUL, NUL]) == Ok("cdb")
  {
    var left := ['c', 'd', 'b', NUL, NUL];
    assert left[3..] == [NUL, NUL];
    assert CString(left[3..]) == Ok([]);
    assert left[2..][1..] == left[3..] && ['b'] + [] == "b";
    assert CString(left[2..]) == Ok("b");
    assert left[1..][1..] == left[2..] && ['d'] + "b" == "db";
    assert CString(left[1..]) == Ok("db");
    assert ['c'] + "db" == "cdb";
  }
}
